=== FILE: README.md ===
# woodtools pipeline core in Dafny

This project models the data-handling core of the woodtools notebook pipeline. woodtools loads micro-CT wood volumes, crops a region of interest, rotates and downsamples the data, and records every choice in a per-dataset parameter cache. The model covers:

- **Dataset selection** (`DataSelector`). A class and a sub-identifier give the store path `<base>/<class>-<sub>.zarr`, split into components the way pathlib splits it, and the dataset ID `<class>-<sub>`. Loading hands a fresh `WorkItem` to the state manager.
- **Shared state** (`State`). `WorkItem` and its deep `copy` are modelled. `StateManager` replaces its item wholesale and notifies every registered observer once per registration, in registration order.
- **Region of interest** (`Roi`). `extract_roi` reads the four named corners and rounds the spans half-to-even. It checks the opposite spans with `np.isclose`, then crops with numpy basic slicing, which clamps rather than fails. `export_coordinates` writes the rectangle's four corners into the parameter cache.
- **Transforms** (`Transforms`). At shape level, `downsample` checks the rank and squareness and computes the target shape. `datatransform` checks the rank and mode and gives the output shape.
- **Rotation widget** (`Rotations`). The slider preview always uses nearest-neighbour interpolation. `rotate` records `{angle, mode}` under the `rotation` kind.
- **Slice files** (`FileMatch`, `Pathing`). The three file-name matchers are `^prefix.*?(\d+)$`. `generate_path_mapping` builds an insertion-ordered map where the last path wins for each key. `assemble_array` stacks the slices in key order.

Shared pieces:

- `Results` holds `Option` and `Result`.
- `Rounding` holds numpy's round-half-to-even and `np.isclose` at its default tolerances.
- `Params` holds the nested parameter cache `cache[ID][kind] = value` that the ROI selector and the rotation widget both write through.

Floating-point values are modelled as exact reals. Everything the code reads from notebook globals, widgets or the file system is a parameter:

- the dataset ID;
- the slider and dropdown values;
- the cache;
- the function that reads a volume from a store;
- the path-stem and image-reading functions.

## Model

| member | source | states |
|---|---|---|
| Rounding.RoundHalfEven | src/woodtools/pipeline/roiselector.py:255-260 | `np.round` gives an integer within half a unit of its argument, and an even one on an exact tie |
| Rounding.RoundHalfEvenUnique | src/woodtools/pipeline/roiselector.py:255-260 | those two properties determine the rounded value uniquely |
| Rounding.RoundHalfEvenOfInt | src/woodtools/pipeline/roiselector.py:255-260 | a whole number rounds to itself |
| Rounding.IsClose | src/woodtools/pipeline/roiselector.py:256-258 | `np.isclose` with numpy's default tolerances accepts identical spans |
| Rounding.IsCloseIsEqualityBelowTolerance | src/woodtools/pipeline/roiselector.py:256-258 | on integer spans below 100000 in size, the `np.isclose` span check is exact equality |
| Rounding.IsCloseToleratesOffByOneAtScale | src/woodtools/pipeline/roiselector.py:256-258 | from 100000 upward in magnitude, any two spans that differ by at most one pass the check (relative tolerance) |
| Params.Upsert | src/woodtools/pipeline/roiselector.py:158-162 | writing `cache[ID][kind]` creates the ID's entry when it is missing; all other IDs and all other kinds of this ID are unchanged |
| Params.UpsertKindsCommute | src/woodtools/pipeline/rotations.py:79-87 | records of different kinds (`roi`, `rotation`) can be written in either order with the same cache as result |
| Params.UpsertLastWins | src/woodtools/pipeline/rotations.py:79-87 | writing the same kind twice keeps only the second value |
| Params.UpsertTwice | src/woodtools/pipeline/rotations.py:79-87 | two writes to one ID leave that ID's entry holding both values, the later write on top |
| Params.EntryWritesCommute | src/woodtools/pipeline/rotations.py:79-87 | two writes of different kinds to one entry commute |
| Roi.ReadPoint | src/woodtools/pipeline/roiselector.py:250-253 | reading a corner raises `KeyError` exactly when it is missing and `TypeError` exactly when it has other than two coordinates; otherwise the point is those two coordinates |
| Roi.CropOf | src/woodtools/pipeline/roiselector.py:250-260 | a corner error arises exactly when some corner is missing or has no two coordinates. Otherwise the crop is the rounded top-left origin and top-left spans. It succeeds exactly when both opposite-span pairs are close, and the horizontal pair is checked first |
| Roi.CropOfExactForRealisticSpans | src/woodtools/pipeline/roiselector.py:255-258 | for spans below 100000 voxels, the check accepts exactly when opposite rounded spans are equal |
| Roi.InconsistentSpansRejected | src/woodtools/pipeline/roiselector.py:255-256 | a quadrilateral whose bottom edge is 12 wide and whose top edge is 10 wide is rejected on the horizontal check |
| Roi.ClampIndex | src/woodtools/pipeline/roiselector.py:262-265 | a slice bound in numpy lands in `[0, n]`, and in-range bounds are kept; the out-of-range cases are stated on `NpSlice` by the four lemmas below |
| Roi.SliceLen | src/woodtools/pipeline/roiselector.py:262-265 | a slice never has more elements than the axis |
| Roi.SliceWithinAxis | src/woodtools/pipeline/roiselector.py:262-265 | the clamped start plus the slice length stays inside the axis |
| Roi.NpSlice | src/woodtools/pipeline/roiselector.py:262-265 | `s[start:stop]` has the clamped length, and element `k` is the source element at the clamped start plus `k` |
| Roi.NegativeStartCountsFromEnd | src/woodtools/pipeline/roiselector.py:262-265 | a start of `-k` (with `k` at most the axis length) selects what a start of `n - k` selects |
| Roi.NegativeStopCountsFromEnd | src/woodtools/pipeline/roiselector.py:262-265 | a stop of `-k` (with `k` at most the axis length) selects what a stop of `n - k` selects |
| Roi.UndershootStartsAtZero | src/woodtools/pipeline/roiselector.py:262-265 | a start below `-n` selects what a start of 0 selects |
| Roi.OvershootClamps | src/woodtools/pipeline/roiselector.py:262-265 | a stop at or past the axis end selects what a stop of `n` selects |
| Roi.NpSliceInBounds | src/woodtools/pipeline/roiselector.py:262-265 | with in-range bounds, numpy slicing is ordinary sub-sequence extraction |
| Roi.CropVolume | src/woodtools/pipeline/roiselector.py:262-265 | all z-slices are kept (`slice(None)` on the first axis) |
| Roi.ExtractRoi | src/woodtools/pipeline/roiselector.py:250-265 | extraction fails exactly when the corner reading or the span check fails, with the same error, and otherwise keeps every z-slice |
| Roi.ExtractRoiIsCrop | src/woodtools/pipeline/roiselector.py:250-265 | a successful extraction is the crop of the volume by the crop the corners describe |
| Roi.ExtractRoiShape | src/woodtools/pipeline/roiselector.py:262-265 | a D×H×W volume gives D × clamped `dy` × clamped `dx` voxels, each the source voxel at the clamped offset |
| Roi.ExtractRoiInBounds | src/woodtools/pipeline/roiselector.py:218-265 | a crop inside the volume gives exactly D×dy×dx voxels, voxel `(z,i,j)` being source voxel `(z, y0+i, x0+j)` |
| Roi.CropInBounds | src/woodtools/pipeline/roiselector.py:262-265 | the same box shape and voxel identity, stated on the crop itself |
| Roi.CropVolumeElements | src/woodtools/pipeline/roiselector.py:262-265 | cropping a D×H×W box yields D × clamped height × clamped width, indexed from the clamped origin |
| Roi.CropPlaneElements | src/woodtools/pipeline/roiselector.py:262-265 | the same for one z-plane |
| Roi.ExtractRoiCopy | src/woodtools/pipeline/roiselector.py:250-265 | on an array, the crop lands in a newly allocated buffer with the clamped shape and the source's voxels at the clamped offset; errors match `CropOf` |
| Roi.CopySlice | src/woodtools/pipeline/roiselector.py:265 | `np.copy` of the basic slice is a fresh array of the clamped shape holding the sliced voxels |
| Roi.CornerDict | src/woodtools/pipeline/roiselector.py:151-156 | the exported dictionary has exactly the four corner names, each with two coordinates |
| Roi.CornerDictAlwaysConsistent | src/woodtools/pipeline/roiselector.py:151-156 | a dictionary exported from a rectangle is always accepted by `extract_roi`. It gives back the rounded origin and the rounded spans `x1-x0` and `y1-y0` |
| Roi.SpecValueRoundTrip | src/woodtools/pipeline/roiselector.py:151-160 | storing a corner dictionary in the cache and reading it back gives the same dictionary |
| Roi.ExportCoordinates | src/woodtools/pipeline/roiselector.py:148-162 | `export_coordinates` stores under `cache[ID]['roi']` a record with exactly the four corner keys that reads back as the rectangle's corner dictionary, creating the entry if needed. The entry gains only `roi`, and nothing else changes |
| Transforms.ModeOf | src/woodtools/pipeline/transforms.py:51-55 | `datatransform` succeeds only for `nearest` and `bilinear`: other strings fail in `InterpolationMode`, and its other members fail in the tensor rotation; an accepted string is the value of the mode it yields |
| Transforms.ModeValueRoundTrip | src/woodtools/pipeline/transforms.py:51 | each mode's value parses back to that mode |
| Transforms.Downsample | src/woodtools/pipeline/transforms.py:10-21 | a rank other than 4 fails, a non-square plane fails, and an empty plane divides by zero. Otherwise the result is (C, z, t, t), with a warning exactly when C ≠ 1, and z within half a slice of t·D/H |
| Transforms.DepthWithinHalfSlice | src/woodtools/pipeline/transforms.py:19-20 | the rounded depth differs from t·D/H by at most half a slice |
| Transforms.ScaledDepthIsQuotient | src/woodtools/pipeline/transforms.py:19-20 | `(t/H)·D` equals `t·D/H` |
| Transforms.DownsampleDepthIsRounded | src/woodtools/pipeline/transforms.py:10-21 | on a square volume the depth is t·D/H rounded half to even |
| Transforms.DownsampleExample | src/woodtools/pipeline/transforms.py:10-21 | (1,100,200,200) at 50 gives (1,25,50,50) with no warning |
| Transforms.DownsampleToSameSizeKeepsDepth | src/woodtools/pipeline/transforms.py:10-21 | asking for the current plane size keeps the whole shape |
| Transforms.Squeeze | src/woodtools/pipeline/transforms.py:56 | no axis of the squeezed shape has length one |
| Transforms.SqueezeDropsOnlyUnitAxes | src/woodtools/pipeline/transforms.py:56 | squeezing removes exactly the unit axes and keeps every other axis |
| Transforms.SqueezeUnitThenPair | src/woodtools/pipeline/transforms.py:50-56 | squeezing (1, H, W) keeps the non-unit sides of the image, in order |
| Transforms.DataTransformAsWritten | src/woodtools/pipeline/transforms.py:44-57 | as written: a non-planar input fails the assertion and an unknown mode fails. The output equals the input shape exactly when neither side is 1 |
| Transforms.DataTransformAsWrittenDropsUnitAxis | src/woodtools/pipeline/transforms.py:56 | a 1×5 image comes back with shape (5,) |
| Transforms.DataTransform | src/woodtools/pipeline/transforms.py:44-57 | corrected: the same failures, and a successful output always has the input's (H, W) |
| Transforms.DataTransformAgreesAwayFromUnitAxes | src/woodtools/pipeline/transforms.py:44-57 | the written and corrected versions agree on every image without a unit side |
| Rotations.DropdownOffersExactlyTheModes | src/woodtools/pipeline/rotations.py:45-69 | every dropdown option parses, so `get_interpolation_mode` never fails, and the dropdown offers exactly the two modes the tensor rotation supports (`ModeOf`) |
| Rotations.ModeLabel | src/woodtools/pipeline/rotations.py:81 | the stored `str(mode)` label is not itself a string `InterpolationMode(...)` accepts |
| Rotations.RotationRecord | src/woodtools/pipeline/rotations.py:80-82 | the rotation record has exactly the fields `angle` and `mode` and reads back as the angle and mode it was built from |
| Rotations.ModeOfLabel | src/woodtools/pipeline/rotations.py:81 | a label that parses names the mode it was printed from |
| Rotations.ModeLabelRoundTrip | src/woodtools/pipeline/rotations.py:81 | the stored `str(mode)` identifies the mode used |
| Rotations.Rotate | src/woodtools/pipeline/rotations.py:71-87 | `rotate` stores under `cache[ID]['rotation']` a record with exactly the fields `angle` and `mode` that reads back as the slider angle and the selected mode, creating the entry if needed. The entry gains only `rotation`, and nothing else changes |
| Rotations.OnSliderChange | src/woodtools/pipeline/rotations.py:56-62 | the slider callback makes one transform call per panel, each with that panel's data, the new angle and mode `nearest` |
| Rotations.PreviewIgnoresDropdown | src/woodtools/pipeline/rotations.py:56-62 | the preview does not depend on the dropdown selection |
| Rotations.PreviewKeepsPanelShapes | src/woodtools/pipeline/rotations.py:61 | with the corrected `datatransform`, every preview call succeeds and keeps its panel's shape |
| State.DefaultItem | src/woodtools/pipeline/state.py:9-11 | `WorkItem()` has no ID, no volume and an empty parameter map |
| State.Copy | src/woodtools/pipeline/state.py:13-21 | `copy` keeps the ID and the parameters, and gives a newly allocated volume with the same voxels (or none if there was none) |
| State.StateManager.Update | src/woodtools/pipeline/state.py:50-52 | `update` replaces the item and notifies each registered observer once, in order |
| State.StateManager.RegisterObserver | src/woodtools/pipeline/state.py:54-56 | registration appends, duplicates included, and notifies nobody |
| State.StateManager.NotifyObservers | src/woodtools/pipeline/state.py:58-61 | each registration produces exactly one notification, in registration order |
| FileMatch.TrailingDigits | src/woodtools/dataloading/regex.py:6 | the greedy `(\d+)$` group: every character counted is a digit, and the character before them is not |
| FileMatch.DecimalValue | src/woodtools/dataloading/regex.py:11 | `int(...)` of a digit string is zero exactly when every digit is `0` |
| FileMatch.Decimal | src/woodtools/dataloading/regex.py:11 | a non-negative number's decimal form is a non-empty digit string |
| FileMatch.DecimalRoundTrip | src/woodtools/dataloading/regex.py:11 | `int(...)` of a number's decimal form gives the number back |
| FileMatch.LeadingZeroIgnored | src/woodtools/dataloading/regex.py:11 | a leading zero does not change `int(...)` |
| FileMatch.MatchIndexed | src/woodtools/dataloading/regex.py:3-14 | the match flag is true exactly when a number is returned; names that do not start with the prefix never match |
| FileMatch.MatchGivesDecomposition | src/woodtools/dataloading/regex.py:6-12 | a match splits the name into prefix, a middle that does not end in a digit, and a non-empty digit run whose value is the number returned |
| FileMatch.DecompositionGivesMatch | src/woodtools/dataloading/regex.py:6-8 | such a split always matches |
| FileMatch.MatchIffDecomposes | src/woodtools/dataloading/regex.py:6-8 | a name matches exactly when it splits that way |
| FileMatch.TrailingDigitsOfSplit | src/woodtools/dataloading/regex.py:6 | the trailing digit run of middle+digits is exactly the digits when the middle does not end in a digit |
| FileMatch.MatchValue | src/woodtools/dataloading/regex.py:9-12 | the number returned is the value of the whole trailing digit run |
| FileMatch.MatchBuiltName | src/woodtools/dataloading/regex.py:3-14 | a name made from the prefix, a non-digit-ending middle and the decimal form of n matches with number n |
| FileMatch.MatchAcerFile | src/woodtools/dataloading/regex.py:3-14 | `match_acer_file` matches exactly the names that split after `acer_<subid>` |
| FileMatch.MatchRekoFile | src/woodtools/dataloading/regex.py:16-27 | `match_reko_file` matches exactly the names that split after `reko<suffix>` |
| FileMatch.MatchResliceFile | src/woodtools/dataloading/regex.py:30-41 | `match_reslice_file` matches exactly the names that split after `Reslice of Reslice<suffix>` |
| FileMatch.RekoLeadingZeros | src/woodtools/dataloading/regex.py:16-27 | `reko_007` matches with number 7 |
| FileMatch.PrefixDigitsDoNotCount | src/woodtools/dataloading/regex.py:19 | digits inside the prefix are not part of the number: `reko1` with suffix `1` does not match |
| FileMatch.UnanchoredNameRejected | src/woodtools/dataloading/regex.py:6-8 | the pattern is anchored: a name with text before `acer_` does not match |
| Pathing.Assign | src/woodtools/pipeline/pathing.py:17 | `OrderedDict` assignment keeps the keys distinct and in step with the stored values |
| Pathing.MatchedKeys | src/woodtools/pipeline/pathing.py:13-16 | the keys seen are exactly the IDs of the paths the matcher accepts |
| Pathing.FirstOccurrences | src/woodtools/pipeline/pathing.py:17 | the key order is duplicate-free and has the same members as the sequence of keys seen |
| Pathing.FirstIndexOfExtension | src/woodtools/pipeline/pathing.py:17 | appending a key does not move the first position of a key already seen |
| Pathing.FirstOccurrencesOrder | src/woodtools/pipeline/pathing.py:17 | keys are ordered by where each was first seen |
| Pathing.LastWithIsLast | src/woodtools/pipeline/pathing.py:17 | the path kept for a key is the last one carrying it, and no later path carries it |
| Pathing.GeneratePathMapping | src/woodtools/pipeline/pathing.py:8-18 | the mapping holds exactly the matched IDs, in order of first appearance, each bound to the last path that produced it |
| Pathing.MappingHoldsExactlyMatchedIndices | src/woodtools/pipeline/pathing.py:13-18 | the resulting mapping has a value for an index exactly when some path's stem matched with that index |
| Pathing.NoMatchesGiveEmptyMapping | src/woodtools/pipeline/pathing.py:13-16 | if nothing matches, the mapping is empty |
| Pathing.InsertSorted | src/woodtools/pipeline/pathing.py:25 | inserting a new key keeps the keys strictly increasing and adds just that key |
| Pathing.SortKeys | src/woodtools/pipeline/pathing.py:25 | sorting gives strictly increasing keys with the same members and count |
| Pathing.SortedItems | src/woodtools/pipeline/pathing.py:25 | `sorted(mapping.items())` lists every entry once, keys strictly increasing, each with its stored path |
| Pathing.AssembleArray | src/woodtools/pipeline/pathing.py:21-27 | stacking fails exactly on an empty mapping. Otherwise slice i is the image read from the path with the i-th smallest key |
| DataSelector.LastSlash | src/woodtools/pipeline/dataselector.py:39 | the position found holds a `/` and no `/` follows it |
| DataSelector.Components | src/woodtools/pipeline/dataselector.py:39 | pathlib's components are never empty, never `.` and never contain `/` |
| DataSelector.Join | src/woodtools/pipeline/dataselector.py:39 | `(path / name).name` is the name's last component; a relative name keeps `path` as a prefix of the result; a name starting with `/` gives an absolute path |
| DataSelector.AbsoluteNameIgnoresBase | src/woodtools/pipeline/dataselector.py:39 | joining a name that starts with `/` gives the same path whatever the base, so the base is discarded |
| DataSelector.ComponentsOfPlainName | src/woodtools/pipeline/dataselector.py:39 | a name without `/` (other than `""` and `.`) is a single component |
| DataSelector.LastComponentIsBasename | src/woodtools/pipeline/dataselector.py:39 | the last component is the text after the last `/` |
| DataSelector.BasenameOfSuffix | src/woodtools/pipeline/dataselector.py:39 | appending slash-free text extends the text after the last `/` by that text |
| DataSelector.StoreNameComponents | src/woodtools/pipeline/dataselector.py:39 | the store name's last component is the ID's text after its last `/` plus `.zarr`, and a slash-free class and sub-identifier give one component |
| DataSelector.BuildPath | src/woodtools/pipeline/dataselector.py:38-39 | the store file is named after the ID's text past its last `/`, plus `.zarr`. With slash-free names it sits directly under the base path as `<ID>.zarr`. A relative name stays under the base, and a class starting with `/` makes the path absolute |
| DataSelector.SlashInClassAddsDirectory | src/woodtools/pipeline/dataselector.py:38-39 | class `a/b` and sub-identifier `c` under `root` give `root/a/b-c.zarr`, named `b-c.zarr` |
| DataSelector.MakeId | src/woodtools/pipeline/dataselector.py:47 | the ID is the class, one dash, then the sub-identifier |
| DataSelector.MakeIdInjective | src/woodtools/pipeline/dataselector.py:47 | when class names contain no dash, distinct selections give distinct IDs |
| DataSelector.FirstDashEndsClass | src/woodtools/pipeline/dataselector.py:47 | in an ID, the first dash ends the class name |
| DataSelector.DefaultIdsDistinct | src/woodtools/pipeline/dataselector.py:22-47 | with the default classes, no two selections share an ID |
| DataSelector.IdsCollideWithDashedClass | src/woodtools/pipeline/dataselector.py:47 | a class name containing a dash can collide with another selection's ID |
| DataSelector.LoadFile | src/woodtools/pipeline/dataselector.py:42-50 | loading reads the built path and hands the manager an item with ID `<class>-<sub>`, the read volume and no parameters. The path's file name is the ID's text after its last `/` plus `.zarr` (the whole ID for slash-free names), and every observer is notified once |

## Left out

- Widgets, figures, `display`, the slider's range and step, and the plotting module are not modelled. They only render or forward the values the model takes as parameters.
- Notebook globals are left out. `__CURRENT_OBJECT__`, `__PARAMETERS__` and `deduce_ID` become explicit `id` and `cache` parameters, and the rotated volume written back to the globals is not modelled.
- Voxel values of rotation and resizing are left out: the torchvision rotation kernels and the trilinear `interpolate`. They are floating-point numerics in foreign code, so transforms are modelled at shape level only.
- torch's own checks on `interpolate` are left out, for example a target size of zero.
- Floating point is left out: coordinates, angles and `in_plane_target / H` are exact reals. Binary rounding error, which can move a value across a `.5` tie, is not modelled.
- `downsample_zarr` and the zarr and skimage I/O are left out. Reading a store or an image is a function parameter (`readVolume`, `imread`), and path stems come from `stem`.
- Pathing.AssembleArray: the `np.stack` shape-mismatch error for slices of different sizes is not modelled. Images are opaque, so only the empty-mapping error is stated.
- FileMatch.MatchAcerFile: `subid` and `suffix` are matched literally. Regular-expression metacharacters inside them are not interpreted.
- FileMatch.MatchIndexed: `\d` is restricted to ASCII digits. Python's `$` also matching before one trailing newline is not modelled.
- FileMatch.MatchIndexed: `.` in the pattern does not match a newline, so Python rejects a name such as `"acer_x\n5"`. The model treats a newline like any other middle character and matches it.
- Pathing.GeneratePathMapping: the matcher is a function to `Option<int>`, so it cannot express a `(True, None)` result, which the source would store under the key `None`. The three matchers never return that pair.
- Transforms.Downsample: the channel warning is recorded only on success. The source emits it for C ≠ 1 as soon as the rank check passes, so it is also emitted before the `NotSquare` and division-by-zero errors.
- State.Copy: work items and parameter maps are values here, not shared mutable objects. So `update` storing the caller's own object (later in-place changes reaching the manager without a notification) is not modelled, and the deep copy of `parameters` holds trivially. Only the freshness of the copied volume buffer is a stated fact.
- Roi.ClampIndex: its own contract pins only in-range bounds. Negative wrap-around and clamping of out-of-range bounds are stated on `NpSlice` instead (`NegativeStartCountsFromEnd`, `NegativeStopCountsFromEnd`, `UndershootStartsAtZero`, `OvershootClamps`).
- DataSelector.Join: pathlib's POSIX rule that exactly two leading slashes keep a `//` root is not modelled. A name starting with `//` is treated like one starting with `/`.
- State.StateManager: Python's shared default `WorkItem()` argument is not modelled; every manager takes its initial item explicitly. What an observer's `on_state_change` does is outside the model, and each call is recorded in a ghost trace instead.
- `WorkItem.__repr__` and `__str__` are left out, as presentation only.
- `backinit.py` is not part of this model.
- `extract_roi` has no depth-range parameter: every z-slice is kept (`CropVolume`).
- An out-of-range crop is not rejected. numpy basic slicing wraps negative bounds and clamps the rest (`ClampIndex`, `SliceLen`).

## Findings

| source | as written | input that shows it | evidently intended | confidence | as-written member | corrected member |
|---|---|---|---|---|---|---|
| src/woodtools/pipeline/transforms.py:56 | `np.squeeze` removes every unit axis of the rotated (1, H, W) tensor, not only the inserted one | a 1×5 image (H = 1) comes back with shape (5,), so the preview panel loses a dimension | remove only the inserted leading axis, so the output is always (H, W) | not executed | Transforms.DataTransformAsWrittenDropsUnitAxis | Transforms.DataTransform |

=== FILE: dataselector.dfy ===
/** Dataset selection (`pipeline/dataselector.py`): the store path and the
    dataset ID built from the class and sub-identifier dropdowns, and the
    hand-off of a freshly loaded volume to the state manager. The array
    store read is a function parameter. */
module DataSelector {
  import opened Results
  import opened State

  /** A filesystem path as pathlib's `parts`: an absolute path starts with
      the component `"/"`. */
  datatype Path = Path(parts: seq<string>)

  /** Position of the last `/` in `s`. */
  function LastSlash(s: string): (k: nat)
    requires '/' in s
    ensures k < |s| && s[k] == '/'
    ensures forall i :: k < i < |s| ==> s[i] != '/'
  {
    if s[|s| - 1] == '/' then |s| - 1
    else
      var init := s[..|s| - 1];
      assert '/' in init by {
        var j :| 0 <= j < |s| && s[j] == '/';
        assert init[j] == '/';
      }
      LastSlash(init)
  }

  /** The text after the last `/`, or all of `s` when it has none. */
  function Basename(s: string): string
  {
    if '/' in s then s[LastSlash(s) + 1..] else s
  }

  /** The components pathlib makes of the string `s`: split at every `/`,
      with empty and `.` components dropped (`..` is kept). */
  function Components(s: string): (r: seq<string>)
    ensures forall i :: 0 <= i < |r| ==> r[i] != "" && r[i] != "." && '/' !in r[i]
    decreases |s|
  {
    if '/' !in s then (if s == "" || s == "." then [] else [s])
    else
      var k := LastSlash(s);
      var last := s[k + 1..];
      assert '/' !in last by {
        forall i | 0 <= i < |last|
          ensures last[i] != '/'
        {
          assert last[i] == s[k + 1 + i];
        }
      }
      Components(s[..k]) + (if last == "" || last == "." then [] else [last])
  }

  /** `path / name`: the name's components are appended, except that a name
      starting with `/` is absolute and replaces `path` altogether. */
  function Join(p: Path, name: string): (r: Path)
    ensures |Components(name)| > 0 ==> FileName(r) == Components(name)[|Components(name)| - 1]
    ensures !(|name| > 0 && name[0] == '/') ==> |p.parts| <= |r.parts| && r.parts[..|p.parts|] == p.parts
    ensures |name| > 0 && name[0] == '/' ==> |r.parts| > 0 && r.parts[0] == "/"
  {
    if |name| > 0 && name[0] == '/' then Path(["/"] + Components(name))
    else Path(p.parts + Components(name))
  }

  /** An absolute name discards the path it is joined to. */
  lemma AbsoluteNameIgnoresBase(p: Path, q: Path, name: string)
    requires |name| > 0 && name[0] == '/'
    ensures Join(p, name) == Join(q, name)
  {
  }

  /** `path.name`: the last component, or `""` for a bare root. */
  function FileName(p: Path): string
  {
    if |p.parts| == 0 || p.parts[|p.parts| - 1] == "/" then "" else p.parts[|p.parts| - 1]
  }

  /** A name without `/` other than `""` and `"."` is one component. */
  lemma ComponentsOfPlainName(s: string)
    requires '/' !in s && s != "" && s != "."
    ensures Components(s) == [s]
  {
  }

  /** The last component is the text after the last `/`, unless that text
      is empty or `.`. */
  lemma LastComponentIsBasename(s: string)
    requires Basename(s) != "" && Basename(s) != "."
    ensures |Components(s)| > 0 && Components(s)[|Components(s)| - 1] == Basename(s)
  {
  }

  /** Appending slash-free text `t` extends the basename by `t`. */
  lemma {:induction false} BasenameOfSuffix(x: string, t: string)
    requires '/' !in t
    ensures Basename(x + t) == Basename(x) + t
  {
    var s := x + t;
    if '/' in x {
      var j :| 0 <= j < |x| && x[j] == '/';
      assert s[j] == '/';
      var k, kx := LastSlash(s), LastSlash(x);
      assert x[k] == s[k];
      assert s[kx] == x[kx];
      assert k == kx;
      assert s[k + 1..] == x[kx + 1..] + t;
    } else {
      assert '/' !in s by {
        forall i | 0 <= i < |s|
          ensures s[i] != '/'
        {
          if i < |x| {
            assert s[i] == x[i];
          } else {
            assert s[i] == t[i - |x|];
          }
        }
      }
    }
  }

  /** The class options the widget is built with by default (the default
      sub-identifiers play no part in telling IDs apart). */
  const DefaultClasses: seq<string> := ["acer", "pinus"]

  /** `f'{class_}-{subidentifier}'`. */
  function MakeId(class_: string, subId: string): (r: string)
    ensures |r| == |class_| + 1 + |subId|
    ensures r[..|class_|] == class_ && r[|class_|] == '-' && r[|class_| + 1..] == subId
  {
    class_ + "-" + subId
  }

  /** `build_path`: `basepath / f'{class_}-{subidentifier}.zarr'`. With
      slash-free names this is a file directly inside `basepath` named after
      the dataset ID; pathlib splits a `/` in either name into further
      components, and a class starting with `/` makes the path absolute. */
  function BuildPath(base: Path, class_: string, subId: string): (r: Path)
    // the file name is the ID's text after its last `/`, plus `.zarr`
    ensures FileName(r) == Basename(MakeId(class_, subId)) + ".zarr"
    ensures '/' !in class_ && '/' !in subId ==> r.parts == base.parts + [MakeId(class_, subId) + ".zarr"]
    ensures !(|class_| > 0 && class_[0] == '/') ==>
      |base.parts| <= |r.parts| && r.parts[..|base.parts|] == base.parts
    ensures |class_| > 0 && class_[0] == '/' ==> r.parts[0] == "/"
  {
    StoreNameComponents(class_, subId);
    Join(base, class_ + "-" + subId + ".zarr")
  }

  /** How pathlib splits the store name `f'{class_}-{subidentifier}.zarr'`. */
  lemma StoreNameComponents(class_: string, subId: string)
    ensures var name, id := class_ + "-" + subId + ".zarr", MakeId(class_, subId);
      && |Components(name)| > 0
      && Components(name)[|Components(name)| - 1] == Basename(id) + ".zarr"
      && ('/' !in class_ && '/' !in subId ==> Components(name) == [id + ".zarr"])
      && (|class_| > 0 ==> name[0] == class_[0])
  {
    var name := class_ + "-" + subId + ".zarr";
    var id := MakeId(class_, subId);
    assert name == id + ".zarr";
    BasenameOfSuffix(id, ".zarr");
    LastComponentIsBasename(name);
    if '/' !in class_ && '/' !in subId {
      assert '/' !in id by {
        forall i | 0 <= i < |id|
          ensures id[i] != '/'
        {
          if i < |class_| {
            assert id[i] == class_[i];
          } else if i > |class_| {
            assert id[i] == subId[i - |class_| - 1];
          }
        }
      }
      assert Basename(id) == id;
      ComponentsOfPlainName(name);
    }
    if |class_| > 0 {
      assert name[0] == class_[0];
    }
  }

  /** A `/` in the class adds a directory level: class `a/b` and
      sub-identifier `c` under `root` give `root/a/b-c.zarr`, named
      `b-c.zarr`. */
  lemma SlashInClassAddsDirectory()
    ensures BuildPath(Path(["root"]), "a/b", "c") == Path(["root", "a", "b-c.zarr"])
    ensures FileName(BuildPath(Path(["root"]), "a/b", "c")) == "b-c.zarr"
  {
    var name := "a/b-c.zarr";
    assert "a/b" + "-" == "a/b-";
    assert "a/b-" + "c" == "a/b-c";
    assert "a/b-c" + ".zarr" == name;
    assert LastSlash(name) == 1;
    assert name[2..] == "b-c.zarr";
    assert name[..1] == "a";
    assert Components("a") == ["a"];
    assert Components(name) == ["a", "b-c.zarr"];
  }

  /** When the class contains no `-`, the ID determines class and
      sub-identifier. */
  lemma MakeIdInjective(c1: string, s1: string, c2: string, s2: string)
    requires '-' !in c1 && '-' !in c2
    requires MakeId(c1, s1) == MakeId(c2, s2)
    ensures c1 == c2 && s1 == s2
  {
    var id := MakeId(c1, s1);
    FirstDashEndsClass(c1, s1);
    FirstDashEndsClass(c2, s2);
    assert |c1| == |c2|;
    assert c1 == id[..|c1|] == c2;
    assert s1 == id[|c1| + 1..] == s2;
  }

  /** In `MakeId(c, s)` with a dash-free class, the first `-` sits right
      after the class. */
  lemma FirstDashEndsClass(c: string, s: string)
    requires '-' !in c
    ensures MakeId(c, s)[|c|] == '-'
    ensures forall i :: 0 <= i < |c| ==> MakeId(c, s)[i] != '-'
  {
    forall i | 0 <= i < |c|
      ensures MakeId(c, s)[i] != '-'
    {
      assert MakeId(c, s)[i] == c[i];
    }
  }

  /** With the default options every (class, sub-identifier) pair gets its
      own ID, hence its own store file. */
  lemma DefaultIdsDistinct(c1: string, s1: string, c2: string, s2: string)
    requires c1 in DefaultClasses && c2 in DefaultClasses
    requires MakeId(c1, s1) == MakeId(c2, s2)
    ensures c1 == c2 && s1 == s2
  {
    MakeIdInjective(c1, s1, c2, s2);
  }

  /** A class containing `-` can collide with another choice. */
  lemma IdsCollideWithDashedClass()
    ensures MakeId("a-b", "c") == MakeId("a", "b-c")
  {
  }

  /** `load_file`: open the store at `build_path(c, s)`, read its volume,
      and hand the state manager a new item with ID `c-s`, that volume and
      no parameters, updating it exactly once. Returns the path it opened. */
  method LoadFile(sm: StateManager, base: Path, class_: string, subId: string,
                  readVolume: Path -> array3<real>) returns (path: Path)
    modifies sm
    ensures path == BuildPath(base, class_, subId)
    ensures sm.item.id.Some? && FileName(path) == Basename(sm.item.id.value) + ".zarr"
    ensures '/' !in class_ && '/' !in subId ==> FileName(path) == sm.item.id.value + ".zarr"
    ensures sm.item == WorkItem(Some(MakeId(class_, subId)), Some(readVolume(path)), map[])
    ensures sm.observers == old(sm.observers)
    ensures sm.notified == old(sm.notified) + old(sm.observers)
  {
    path := BuildPath(base, class_, subId);
    var volume := readVolume(path);
    var id := class_ + "-" + subId;
    var item := WorkItem(Some(id), Some(volume), map[]);
    sm.Update(item);
  }
}

=== FILE: filematch.dfy ===
/** The slice-file name matchers of `dataloading/regex.py`. Each one is the
    regular expression `^PREFIX.*?(\d+)$` applied with `re.match`; here it
    is written as direct string logic: the name must start with the literal
    prefix and end in a non-empty run of ASCII digits after it. */
module FileMatch {
  import opened Results

  predicate IsDigit(c: char) { '0' <= c <= '9' }

  predicate AllDigits(s: string)
  {
    forall i :: 0 <= i < |s| ==> IsDigit(s[i])
  }

  /** Length of the maximal run of digits at the end of `s`. */
  function TrailingDigits(s: string): (n: nat)
    ensures n <= |s|
    ensures AllDigits(s[|s| - n..])
    ensures n < |s| ==> !IsDigit(s[|s| - n - 1])
  {
    if |s| == 0 || !IsDigit(s[|s| - 1]) then 0
    else
      var t := s[..|s| - 1];
      var n := TrailingDigits(t);
      var tail := s[|s| - (n + 1)..];
      assert AllDigits(tail) by {
        forall i | 0 <= i < |tail|
          ensures IsDigit(tail[i])
        {
          if i < n {
            assert tail[i] == t[|t| - n..][i];
          }
        }
      }
      assert n + 1 < |s| ==> s[|s| - (n + 1) - 1] == t[|t| - n - 1];
      n + 1
  }

  function DigitValue(c: char): nat
    requires IsDigit(c)
  {
    c as int - '0' as int
  }

  /** `int(digits)` for a string of ASCII digits. */
  function DecimalValue(s: string): (r: nat)
    requires AllDigits(s)
    // the value is zero exactly when every digit is `0`, the empty string included
    ensures r == 0 <==> forall i :: 0 <= i < |s| ==> s[i] == '0'
  {
    if |s| == 0 then 0
    else DecimalValue(s[..|s| - 1]) * 10 + DigitValue(s[|s| - 1])
  }

  /** The decimal spelling of `n`, without leading zeros. */
  function Decimal(n: nat): (s: string)
    ensures |s| > 0 && AllDigits(s)
  {
    var last := ('0' as int + n % 10) as char;
    if n < 10 then [last] else Decimal(n / 10) + [last]
  }

  /** Spelling a number and reading it back gives the number. */
  lemma {:induction false} DecimalRoundTrip(n: nat)
    ensures DecimalValue(Decimal(n)) == n
  {
    var s := Decimal(n);
    assert s[..|s| - 1] == (if n < 10 then [] else Decimal(n / 10));
    if n >= 10 {
      DecimalRoundTrip(n / 10);
    }
  }

  /** A leading zero does not change the value: `int('007') == 7`. */
  lemma {:induction false} LeadingZeroIgnored(s: string)
    requires AllDigits(s)
    ensures AllDigits("0" + s) && DecimalValue("0" + s) == DecimalValue(s)
  {
    if |s| > 0 {
      var t := "0" + s;
      assert t[..|t| - 1] == "0" + s[..|s| - 1];
      LeadingZeroIgnored(s[..|s| - 1]);
    }
  }

  /** `re.match('^' + prefix + r'.*?(\d+)$', name)` as `(is_match, number)`.
      The lazy middle leaves the longest possible digit group, so the group
      is the maximal trailing digit run after the prefix. */
  function MatchIndexed(prefix: string, name: string): (r: (bool, Option<nat>))
    ensures r.0 <==> r.1.Some?
    ensures !(prefix <= name) ==> r == (false, None)
  {
    if !(prefix <= name) then (false, None)
    else
      var rest := name[|prefix|..];
      var n := TrailingDigits(rest);
      if n == 0 then (false, None)
      else (true, Some(DecimalValue(rest[|rest| - n..])))
  }

  /** `name` is the prefix, then anything, then a non-empty digit run. */
  predicate Decomposes(prefix: string, name: string, middle: string, digits: string)
  {
    name == prefix + middle + digits && |digits| > 0 && AllDigits(digits)
  }

  /** A match splits the name into prefix, a middle that does not end in a
      digit, and the digit run whose value is the number returned. */
  lemma MatchGivesDecomposition(prefix: string, name: string) returns (middle: string, digits: string)
    requires MatchIndexed(prefix, name).0
    ensures Decomposes(prefix, name, middle, digits)
    ensures |middle| == 0 || !IsDigit(middle[|middle| - 1])
    ensures MatchIndexed(prefix, name).1 == Some(DecimalValue(digits))
  {
    assert prefix <= name;
    var rest := name[|prefix|..];
    var n := TrailingDigits(rest);
    assert n > 0;
    middle, digits := rest[..|rest| - n], rest[|rest| - n..];
    assert MatchIndexed(prefix, name).1 == Some(DecimalValue(digits));
    assert rest == middle + digits;
    assert name == prefix + rest;
    assert prefix + rest == prefix + middle + digits;
    if |middle| > 0 {
      assert middle[|middle| - 1] == rest[|rest| - n - 1];
    }
  }

  /** Any such split makes the name match. */
  lemma DecompositionGivesMatch(prefix: string, name: string, middle: string, digits: string)
    requires Decomposes(prefix, name, middle, digits)
    ensures MatchIndexed(prefix, name).0
  {
    assert prefix <= name;
    var rest := name[|prefix|..];
    assert rest == middle + digits;
    assert IsDigit(rest[|rest| - 1]);
  }

  /** A name matches exactly when it decomposes as prefix, middle, digits. */
  lemma MatchIffDecomposes(prefix: string, name: string)
    ensures MatchIndexed(prefix, name).0 <==>
      exists middle, digits :: Decomposes(prefix, name, middle, digits)
  {
    if MatchIndexed(prefix, name).0 {
      var middle, digits := MatchGivesDecomposition(prefix, name);
    }
    if exists middle, digits :: Decomposes(prefix, name, middle, digits) {
      var middle, digits :| Decomposes(prefix, name, middle, digits);
      DecompositionGivesMatch(prefix, name, middle, digits);
    }
  }

  /** When the middle does not end in a digit, the digit run is maximal. */
  lemma {:induction false} TrailingDigitsOfSplit(middle: string, digits: string)
    requires AllDigits(digits)
    requires |middle| == 0 || !IsDigit(middle[|middle| - 1])
    ensures TrailingDigits(middle + digits) == |digits|
  {
    var s := middle + digits;
    if |digits| == 0 {
      assert s == middle;
    } else {
      assert s[..|s| - 1] == middle + digits[..|digits| - 1];
      TrailingDigitsOfSplit(middle, digits[..|digits| - 1]);
    }
  }

  /** The number is the value of the maximal digit run that ends the name and
      starts after the prefix. */
  lemma MatchValue(prefix: string, middle: string, digits: string)
    requires |digits| > 0 && AllDigits(digits)
    requires |middle| == 0 || !IsDigit(middle[|middle| - 1])
    ensures MatchIndexed(prefix, prefix + middle + digits) == (true, Some(DecimalValue(digits)))
  {
    var rest := middle + digits;
    PrefixThenRest(prefix, middle, digits);
    TrailingDigitsOfSplit(middle, digits);
    assert rest[|rest| - |digits|..] == digits;
  }

  lemma PrefixThenRest(prefix: string, middle: string, digits: string)
    ensures prefix <= prefix + middle + digits
    ensures (prefix + middle + digits)[|prefix|..] == middle + digits
  {
    assert prefix + middle + digits == prefix + (middle + digits);
  }

  /** Building a name from a prefix, a middle that does not end in a digit
      and a number's decimal spelling, and matching it, gives the number back. */
  lemma MatchBuiltName(prefix: string, middle: string, n: nat)
    requires |middle| == 0 || !IsDigit(middle[|middle| - 1])
    ensures MatchIndexed(prefix, prefix + middle + Decimal(n)) == (true, Some(n))
  {
    MatchValue(prefix, middle, Decimal(n));
    DecimalRoundTrip(n);
  }

  /** `match_acer_file(filename, subid)`. */
  function MatchAcerFile(filename: string, subid: string): (r: (bool, Option<nat>))
    ensures r.0 <==> exists middle, digits :: Decomposes("acer_" + subid, filename, middle, digits)
  {
    MatchIffDecomposes("acer_" + subid, filename);
    MatchIndexed("acer_" + subid, filename)
  }

  /** `match_reko_file(filename, suffix='')`. */
  function MatchRekoFile(filename: string, suffix: string := ""): (r: (bool, Option<nat>))
    ensures r.0 <==> exists middle, digits :: Decomposes("reko" + suffix, filename, middle, digits)
  {
    MatchIffDecomposes("reko" + suffix, filename);
    MatchIndexed("reko" + suffix, filename)
  }

  /** `match_reslice_file(filename, suffix='')`. */
  function MatchResliceFile(filename: string, suffix: string := ""): (r: (bool, Option<nat>))
    ensures r.0 <==> exists middle, digits :: Decomposes("Reslice of Reslice" + suffix, filename, middle, digits)
  {
    MatchIffDecomposes("Reslice of Reslice" + suffix, filename);
    MatchIndexed("Reslice of Reslice" + suffix, filename)
  }

  /** Leading zeros are dropped: `'reko_007'` is slice 7. */
  lemma RekoLeadingZeros()
    ensures MatchRekoFile("reko_007") == (true, Some(7))
  {
    assert "reko" + "" == "reko";
    assert "reko_007" == "reko" + "_" + "007";
    MatchValue("reko", "_", "007");
    assert DecimalValue("007") == 7 by {
      assert "007"[..2] == "00" && "00"[..1] == "0" && "0"[..0] == "";
    }
  }

  /** Digits inside the prefix never count: with suffix `'1'`, `'reko1'` has
      nothing left after the prefix and does not match. */
  lemma PrefixDigitsDoNotCount()
    ensures MatchRekoFile("reko1", "1") == (false, None)
  {
    assert "reko" + "1" == "reko1";
    assert "reko1"[|"reko1"|..] == "";
  }

  /** A name that does not start with the prefix never matches, however it ends. */
  lemma UnanchoredNameRejected()
    ensures MatchAcerFile("x_acer_links12", "links") == (false, None)
  {
    assert "x_acer_links12"[0] != ("acer_" + "links")[0];
  }
}

=== FILE: params.dfy ===
/** The nested parameter cache the widgets write into: dataset ID ->
    parameter kind (`"roi"`, `"rotation"`) -> a JSON-like value. The
    ambient global dictionary of the program becomes an explicit value
    passed in and returned. */
module Params {

  /** The Python values that end up in the cache: floats, strings, lists
      and string-keyed dicts. */
  datatype Value =
    | Num(x: real)
    | Str(s: string)
    | List(items: seq<Value>)
    | Dict(fields: map<string, Value>)

  type Entry = map<string, Value>
  type Cache = map<string, Entry>

  /** `cache[ID][kind] = value`, creating `cache[ID] = {}` first when the
      lookup raises `KeyError`. */
  function Upsert(cache: Cache, id: string, kind: string, v: Value): (r: Cache)
    ensures r.Keys == cache.Keys + {id}
    ensures kind in r[id] && r[id][kind] == v
    ensures forall other :: other in cache && other != id ==> r[other] == cache[other]
    ensures id !in cache ==> r[id].Keys == {kind}
    ensures id in cache ==> r[id].Keys == cache[id].Keys + {kind}
    ensures id in cache ==> forall k :: k in cache[id] && k != kind ==> r[id][k] == cache[id][k]
  {
    var entry := if id in cache then cache[id] else map[];
    cache[id := entry[kind := v]]
  }

  /** Writing two different kinds under one ID gives the same cache in either
      order: the ROI and the rotation widget do not disturb each other. */
  lemma UpsertKindsCommute(cache: Cache, id: string, k1: string, v1: Value, k2: string, v2: Value)
    requires k1 != k2
    ensures Upsert(Upsert(cache, id, k1, v1), id, k2, v2)
         == Upsert(Upsert(cache, id, k2, v2), id, k1, v1)
  {
    var e := if id in cache then cache[id] else map[];
    UpsertTwice(cache, id, k1, v1, k2, v2);
    UpsertTwice(cache, id, k2, v2, k1, v1);
    EntryWritesCommute(e, k1, v1, k2, v2);
  }

  lemma EntryWritesCommute(e: Entry, k1: string, v1: Value, k2: string, v2: Value)
    requires k1 != k2
    ensures e[k1 := v1][k2 := v2] == e[k2 := v2][k1 := v1]
  {
  }

  /** A second write of the same kind replaces the first entirely. */
  lemma UpsertLastWins(cache: Cache, id: string, kind: string, v1: Value, v2: Value)
    ensures Upsert(Upsert(cache, id, kind, v1), id, kind, v2) == Upsert(cache, id, kind, v2)
  {
    var e := if id in cache then cache[id] else map[];
    UpsertTwice(cache, id, kind, v1, kind, v2);
    assert e[kind := v1][kind := v2] == e[kind := v2];
  }

  /** Two writes under one ID are one update of that ID's entry. */
  lemma UpsertTwice(cache: Cache, id: string, k1: string, v1: Value, k2: string, v2: Value)
    ensures Upsert(Upsert(cache, id, k1, v1), id, k2, v2)
         == cache[id := (if id in cache then cache[id] else map[])[k1 := v1][k2 := v2]]
  {
    var e := if id in cache then cache[id] else map[];
    var c1 := cache[id := e[k1 := v1]];
    assert Upsert(cache, id, k1, v1) == c1;
    assert Upsert(c1, id, k2, v2) == c1[id := e[k1 := v1][k2 := v2]];
    assert c1[id := e[k1 := v1][k2 := v2]] == cache[id := e[k1 := v1][k2 := v2]];
  }
}

=== FILE: pathing.dfy ===
/** Slice-path ordering (`pipeline/pathing.py`): collecting matching file
    paths into an insertion-ordered map keyed by the extracted slice index,
    and reading that map back in ascending index order to stack the slices.
    Paths are an arbitrary type `P`; `Path.stem` and the matcher are passed
    in as functions, and image reading as a function from path to image. */
module Pathing {
  import opened Results

  /** An `OrderedDict[int, P]`: the keys in insertion order and the
      key-to-value map. */
  datatype OrderedMap<P> = OrderedMap(keys: seq<int>, vals: map<int, P>)

  predicate Distinct(s: seq<int>)
  {
    forall i, j :: 0 <= i < j < |s| ==> s[i] != s[j]
  }

  /** Each key listed once, and listed exactly when it has a value. */
  ghost predicate Valid<P>(m: OrderedMap<P>)
  {
    Distinct(m.keys) && forall k :: k in m.keys <==> k in m.vals
  }

  /** `m[k] = v`. A new key is appended; an existing key keeps its place. */
  function Assign<P>(m: OrderedMap<P>, k: int, v: P): (r: OrderedMap<P>)
    requires Valid(m)
    ensures Valid(r)
  {
    if k in m.vals then OrderedMap(m.keys, m.vals[k := v])
    else OrderedMap(m.keys + [k], m.vals[k := v])
  }

  /** The slice index of a path, if its stem matches. */
  function KeyOf<P>(p: P, stem: P -> string, matcher: string -> Option<int>): Option<int>
  {
    matcher(stem(p))
  }

  /** Indices of the matching paths, in input order, repeats included. */
  function MatchedKeys<P>(paths: seq<P>, stem: P -> string, matcher: string -> Option<int>): (r: seq<int>)
    ensures forall k :: k in r <==>
      exists i :: 0 <= i < |paths| && KeyOf(paths[i], stem, matcher) == Some(k)
  {
    if |paths| == 0 then []
    else
      var init := paths[..|paths| - 1];
      var last := paths[|paths| - 1];
      assert forall i :: 0 <= i < |init| ==> init[i] == paths[i];
      MatchedKeys(init, stem, matcher)
        + (match KeyOf(last, stem, matcher) case Some(k) => [k] case None => [])
  }

  /** Each element once, at the position of its first occurrence. */
  function FirstOccurrences(s: seq<int>): (r: seq<int>)
    ensures Distinct(r)
    ensures forall x :: x in r <==> x in s
  {
    if |s| == 0 then []
    else
      var d := FirstOccurrences(s[..|s| - 1]);
      assert forall x :: x in s <==> x in s[..|s| - 1] || x == s[|s| - 1];
      if s[|s| - 1] in d then d else d + [s[|s| - 1]]
  }

  /** Position of the first occurrence of `x` in `s`. */
  function FirstIndex(s: seq<int>, x: int): (i: nat)
    requires x in s
    ensures i < |s| && s[i] == x && x !in s[..i]
  {
    if s[0] == x then 0
    else
      var j := FirstIndex(s[1..], x);
      assert s[..j + 1] == [s[0]] + s[1..][..j];
      j + 1
  }

  lemma {:induction false} FirstIndexOfExtension(s: seq<int>, x: int, y: int)
    requires y in s
    ensures FirstIndex(s + [x], y) == FirstIndex(s, y)
  {
    if s[0] != y {
      assert (s + [x])[1..] == s[1..] + [x];
      FirstIndexOfExtension(s[1..], x, y);
    }
  }

  /** `FirstOccurrences` lists elements in the order they first appear. */
  lemma {:induction false} FirstOccurrencesOrder(s: seq<int>)
    ensures forall i, j :: 0 <= i < j < |FirstOccurrences(s)| ==>
      FirstIndex(s, FirstOccurrences(s)[i]) < FirstIndex(s, FirstOccurrences(s)[j])
  {
    if |s| > 0 {
      var init, x := s[..|s| - 1], s[|s| - 1];
      assert s == init + [x];
      var d := FirstOccurrences(init);
      FirstOccurrencesOrder(init);
      forall y | y in init
        ensures FirstIndex(s, y) == FirstIndex(init, y)
      {
        FirstIndexOfExtension(init, x, y);
      }
      if x !in init {
        assert FirstIndex(s, x) == |init|;
      }
    }
  }

  /** The last path in the input whose index is `k`, if any. */
  function LastWith<P>(paths: seq<P>, stem: P -> string, matcher: string -> Option<int>, k: int): Option<P>
  {
    if |paths| == 0 then None
    else if KeyOf(paths[|paths| - 1], stem, matcher) == Some(k) then Some(paths[|paths| - 1])
    else LastWith(paths[..|paths| - 1], stem, matcher, k)
  }

  /** `LastWith` finds the path at the greatest position with index `k`. */
  lemma {:induction false} LastWithIsLast<P>(paths: seq<P>, stem: P -> string, matcher: string -> Option<int>, k: int)
    ensures LastWith(paths, stem, matcher, k).None? <==>
      forall i :: 0 <= i < |paths| ==> KeyOf(paths[i], stem, matcher) != Some(k)
    ensures LastWith(paths, stem, matcher, k).Some? ==>
      exists i :: 0 <= i < |paths| && KeyOf(paths[i], stem, matcher) == Some(k)
        && paths[i] == LastWith(paths, stem, matcher, k).value
        && forall j :: i < j < |paths| ==> KeyOf(paths[j], stem, matcher) != Some(k)
  {
    if |paths| > 0 {
      var init := paths[..|paths| - 1];
      assert forall i :: 0 <= i < |init| ==> init[i] == paths[i];
      LastWithIsLast(init, stem, matcher, k);
      if KeyOf(paths[|paths| - 1], stem, matcher) != Some(k) && LastWith(init, stem, matcher, k).Some? {
        var i :| 0 <= i < |init| && KeyOf(init[i], stem, matcher) == Some(k)
          && init[i] == LastWith(init, stem, matcher, k).value
          && forall j :: i < j < |init| ==> KeyOf(init[j], stem, matcher) != Some(k);
        assert forall j :: i < j < |paths| ==> KeyOf(paths[j], stem, matcher) != Some(k);
      }
    }
  }

  /** How the specification functions grow when the loop takes one more path. */
  lemma StepFacts<P>(paths: seq<P>, i: nat, stem: P -> string, matcher: string -> Option<int>)
    requires i < |paths|
    ensures MatchedKeys(paths[..i + 1], stem, matcher)
         == MatchedKeys(paths[..i], stem, matcher)
            + (match KeyOf(paths[i], stem, matcher) case Some(k) => [k] case None => [])
    ensures forall k ::
      LastWith(paths[..i + 1], stem, matcher, k)
      == (if KeyOf(paths[i], stem, matcher) == Some(k) then Some(paths[i])
          else LastWith(paths[..i], stem, matcher, k))
  {
    assert paths[..i + 1][..i] == paths[..i];
    assert paths[..i + 1][i] == paths[i];
  }

  lemma FirstOccurrencesSnoc(s: seq<int>, x: int)
    ensures FirstOccurrences(s + [x])
         == if x in s then FirstOccurrences(s) else FirstOccurrences(s) + [x]
  {
    assert (s + [x])[..|s|] == s;
  }

  /** What the loop of `generate_path_mapping` knows after the first `i` paths. */
  ghost predicate MappingInvariant<P>(paths: seq<P>, i: nat, stem: P -> string, matcher: string -> Option<int>,
                                      m: OrderedMap<P>)
    requires i <= |paths|
  {
    && Valid(m)
    && m.keys == FirstOccurrences(MatchedKeys(paths[..i], stem, matcher))
    && (forall k :: k in m.vals <==> k in MatchedKeys(paths[..i], stem, matcher))
    && (forall k :: k in m.vals ==> Some(m.vals[k]) == LastWith(paths[..i], stem, matcher, k))
  }

  /** One loop step: the body of `generate_path_mapping` for path `i`. */
  function Step<P>(m: OrderedMap<P>, p: P, stem: P -> string, matcher: string -> Option<int>): OrderedMap<P>
    requires Valid(m)
  {
    match KeyOf(p, stem, matcher)
    case None => m
    case Some(k) => Assign(m, k, p)
  }

  lemma StepMaintains<P>(paths: seq<P>, i: nat, stem: P -> string, matcher: string -> Option<int>,
                         m: OrderedMap<P>)
    requires i < |paths|
    requires MappingInvariant(paths, i, stem, matcher, m)
    ensures MappingInvariant(paths, i + 1, stem, matcher, Step(m, paths[i], stem, matcher))
  {
    match KeyOf(paths[i], stem, matcher)
    case None => StepSkips(paths, i, stem, matcher, m);
    case Some(k0) => StepStores(paths, i, stem, matcher, m, k0);
  }

  /** A path whose stem does not match leaves the mapping as it is. */
  lemma StepSkips<P>(paths: seq<P>, i: nat, stem: P -> string, matcher: string -> Option<int>,
                     m: OrderedMap<P>)
    requires i < |paths| && KeyOf(paths[i], stem, matcher).None?
    requires MappingInvariant(paths, i, stem, matcher, m)
    ensures MappingInvariant(paths, i + 1, stem, matcher, m)
  {
    StepFacts(paths, i, stem, matcher);
    var before := MatchedKeys(paths[..i], stem, matcher);
    assert MatchedKeys(paths[..i + 1], stem, matcher) == before + [] == before;
    forall k | k in m.vals
      ensures Some(m.vals[k]) == LastWith(paths[..i + 1], stem, matcher, k)
    {
      assert LastWith(paths[..i + 1], stem, matcher, k) == LastWith(paths[..i], stem, matcher, k);
    }
  }

  /** A path with index `k0` is stored under `k0`. */
  lemma StepStores<P>(paths: seq<P>, i: nat, stem: P -> string, matcher: string -> Option<int>,
                      m: OrderedMap<P>, k0: int)
    requires i < |paths| && KeyOf(paths[i], stem, matcher) == Some(k0)
    requires MappingInvariant(paths, i, stem, matcher, m)
    ensures MappingInvariant(paths, i + 1, stem, matcher, Assign(m, k0, paths[i]))
  {
    StepFacts(paths, i, stem, matcher);
    var before := MatchedKeys(paths[..i], stem, matcher);
    assert MatchedKeys(paths[..i + 1], stem, matcher) == before + [k0];
    StepAssigns(before, k0, paths[i], m);
    var m' := Assign(m, k0, paths[i]);
    forall k | k in m'.vals
      ensures Some(m'.vals[k]) == LastWith(paths[..i + 1], stem, matcher, k)
    {
      if k != k0 {
        assert m'.vals[k] == m.vals[k];
        assert LastWith(paths[..i + 1], stem, matcher, k) == LastWith(paths[..i], stem, matcher, k);
      }
    }
  }

  /** Assigning `k0` keeps the bookkeeping in step with the matched keys
      extended by `k0`. */
  lemma StepAssigns<P>(before: seq<int>, k0: int, p: P, m: OrderedMap<P>)
    requires Valid(m)
    requires m.keys == FirstOccurrences(before)
    requires forall k :: k in m.vals <==> k in before
    ensures Assign(m, k0, p).keys == FirstOccurrences(before + [k0])
    ensures forall k :: k in Assign(m, k0, p).vals <==> k in before + [k0]
    ensures Assign(m, k0, p).vals == m.vals[k0 := p]
  {
    FirstOccurrencesSnoc(before, k0);
    assert forall k :: k in before + [k0] <==> k in before || k == k0;
  }

  /** `generate_path_mapping(paths, match_fun)`: loop over the paths, skip the
      ones whose stem does not match, and assign `mapping[ID] = path`. */
  method GeneratePathMapping<P>(paths: seq<P>, stem: P -> string, matcher: string -> Option<int>)
    returns (m: OrderedMap<P>)
    ensures Valid(m)
    // the keys are the indices of the matching paths, each at its first
    // appearance; with Valid, an index has a value exactly when some path
    // matched with it
    ensures m.keys == FirstOccurrences(MatchedKeys(paths, stem, matcher))
    // for a repeated index the last matching path wins
    ensures forall k :: k in m.vals ==> Some(m.vals[k]) == LastWith(paths, stem, matcher, k)
  {
    m := OrderedMap([], map[]);
    assert paths[..0] == [];
    for i := 0 to |paths|
      invariant MappingInvariant(paths, i, stem, matcher, m)
    {
      StepMaintains(paths, i, stem, matcher, m);
      var key := KeyOf(paths[i], stem, matcher);
      if key.None? {
        continue;
      }
      m := Assign(m, key.value, paths[i]);
    }
    assert paths[..|paths|] == paths;
  }

  /** A map of the shape `GeneratePathMapping` returns holds a value for an
      index exactly when some path's stem matched with that index. */
  lemma MappingHoldsExactlyMatchedIndices<P>(paths: seq<P>, stem: P -> string, matcher: string -> Option<int>,
                                             m: OrderedMap<P>)
    requires Valid(m)
    requires m.keys == FirstOccurrences(MatchedKeys(paths, stem, matcher))
    ensures forall k :: k in m.vals <==>
      exists i :: 0 <= i < |paths| && KeyOf(paths[i], stem, matcher) == Some(k)
  {
  }

  /** A path list with no matching stem, the empty list included, gives an
      empty mapping. */
  lemma NoMatchesGiveEmptyMapping<P>(paths: seq<P>, stem: P -> string, matcher: string -> Option<int>)
    requires forall i :: 0 <= i < |paths| ==> KeyOf(paths[i], stem, matcher).None?
    ensures MatchedKeys(paths, stem, matcher) == []
    ensures FirstOccurrences(MatchedKeys(paths, stem, matcher)) == []
  {
  }

  // ---------------------------------------------------------------------------
  // assemble_array: reading the mapping in ascending key order
  // ---------------------------------------------------------------------------

  predicate StrictlyIncreasing(s: seq<int>)
  {
    forall i, j :: 0 <= i < j < |s| ==> s[i] < s[j]
  }

  function InsertSorted(x: int, s: seq<int>): (r: seq<int>)
    requires StrictlyIncreasing(s) && x !in s
    ensures StrictlyIncreasing(r)
    ensures |r| == |s| + 1
    ensures forall y :: y in r <==> y in s || y == x
  {
    if |s| == 0 then [x]
    else if x < s[0] then [x] + s
    else
      assert forall y :: y in s <==> y == s[0] || y in s[1..];
      var rest := InsertSorted(x, s[1..]);
      assert forall i :: 0 <= i < |rest| ==> s[0] < rest[i] by {
        forall i | 0 <= i < |rest|
          ensures s[0] < rest[i]
        {
          assert rest[i] in rest;
        }
      }
      [s[0]] + rest
  }

  /** `sorted(keys)` for distinct integer keys. */
  function SortKeys(keys: seq<int>): (r: seq<int>)
    requires Distinct(keys)
    ensures StrictlyIncreasing(r)
    ensures |r| == |keys|
    ensures forall y :: y in r <==> y in keys
  {
    if |keys| == 0 then []
    else
      var init := keys[..|keys| - 1];
      assert forall y :: y in keys <==> y in init || y == keys[|keys| - 1];
      InsertSorted(keys[|keys| - 1], SortKeys(init))
  }

  /** `sorted(path_mapping.items())`: the entries in strictly ascending key
      order, one per mapping entry. */
  function SortedItems<P>(m: OrderedMap<P>): (r: seq<(int, P)>)
    requires Valid(m)
    ensures |r| == |m.keys|
    ensures forall i, j :: 0 <= i < j < |r| ==> r[i].0 < r[j].0
    ensures forall i :: 0 <= i < |r| ==> r[i].0 in m.vals && r[i].1 == m.vals[r[i].0]
    ensures forall k :: k in m.vals ==> exists i :: 0 <= i < |r| && r[i].0 == k
  {
    var ks := SortKeys(m.keys);
    SortedKeysCover(m, ks);
    Pairs(ks, m.vals)
  }

  /** The sorted keys are exactly the mapping's keys. */
  lemma SortedKeysCover<P>(m: OrderedMap<P>, ks: seq<int>)
    requires Valid(m) && ks == SortKeys(m.keys)
    ensures forall i :: 0 <= i < |ks| ==> ks[i] in m.vals
    ensures forall k :: k in m.vals ==> exists i :: 0 <= i < |ks| && ks[i] == k
  {
    forall i | 0 <= i < |ks|
      ensures ks[i] in m.vals
    {
      assert ks[i] in ks;
    }
    forall k | k in m.vals
      ensures exists i :: 0 <= i < |ks| && ks[i] == k
    {
      assert k in ks;
    }
  }

  /** Each key paired with its value. */
  function Pairs<P>(ks: seq<int>, vals: map<int, P>): (r: seq<(int, P)>)
    requires forall i :: 0 <= i < |ks| ==> ks[i] in vals
    ensures |r| == |ks|
    ensures forall i :: 0 <= i < |r| ==> r[i] == (ks[i], vals[ks[i]])
  {
    seq(|ks|, i requires 0 <= i < |ks| => (ks[i], vals[ks[i]]))
  }

  datatype StackError = EmptyStack

  /** `assemble_array`: read each path in ascending key order and stack the
      images along a new leading axis; `np.stack` of no images fails. */
  function AssembleArray<P, I>(m: OrderedMap<P>, imread: P -> I): (r: Result<seq<I>, StackError>)
    requires Valid(m)
    ensures r.Err? <==> |m.keys| == 0
    ensures r.Ok? ==> |r.value| == |m.keys|
    ensures r.Ok? ==> forall i :: 0 <= i < |r.value| ==> r.value[i] == imread(SortedItems(m)[i].1)
  {
    var items := SortedItems(m);
    if |items| == 0 then Err(EmptyStack)
    else Ok(seq(|items|, i requires 0 <= i < |items| => imread(items[i].1)))
  }
}

=== FILE: results.dfy ===
/** Failure-carrying wrappers shared by every module of the model:
    `Option` for Python's `value | None`, `Result` for a call that either
    returns or raises. */
module Results {

  datatype Option<+T> = None | Some(value: T)

  datatype Result<+T, +E> = Ok(value: T) | Err(error: E) {
    predicate IsFailure() { Err? }

    function PropagateFailure<U>(): Result<U, E>
      requires Err?
    {
      Err(error)
    }

    function Extract(): T
      requires Ok?
    {
      value
    }
  }
}

=== FILE: roi.dfy ===
/** Region-of-interest extraction (`pipeline/roiselector.py`): the four-corner
    ROI specification, its validation, the whole-pixel crop of a (D, H, W)
    volume under numpy slicing rules, and the corner dictionary the selector
    widget exports into the parameter cache. */
module Roi {
  import opened Results
  import opened Rounding
  import opened Params

  /** An in-plane coordinate pair; floats are modelled as exact reals. */
  datatype Point = Point(x: real, y: real)

  /** `roispec`: corner name -> coordinate sequence (normally of length 2). */
  type RoiSpec = map<string, seq<real>>

  /** A volume as nested sequences, indexed `[z][y][x]`. */
  type Grid<T> = seq<seq<seq<T>>>

  const TopLeft: string := "top_left"
  const TopRight: string := "top_right"
  const BottomLeft: string := "bottom_left"
  const BottomRight: string := "bottom_right"

  datatype Axis = Horizontal | Vertical

  /** What `extract_roi` raises: `KeyError` for a missing corner, `TypeError`
      when `Point(*coords)` gets the wrong number of coordinates, and
      `AssertionError` when opposite edges disagree. */
  datatype RoiError =
    | MissingCorner(corner: string)
    | BadCorner(corner: string, arity: nat)
    | SpanMismatch(axis: Axis)

  /** The crop in whole pixels: origin and (possibly negative) extents. */
  datatype Crop = Crop(x0: int, y0: int, dx: int, dy: int)

  /** `Point(*roispec[corner])`: a missing corner raises `KeyError`, any
      number of coordinates other than two raises `TypeError`. */
  function ReadPoint(spec: RoiSpec, corner: string): (r: Result<Point, RoiError>)
    ensures r == Err(MissingCorner(corner)) <==> corner !in spec
    ensures r.Err? && r.error.BadCorner? <==> corner in spec && |spec[corner]| != 2
    ensures r.Ok? ==> |spec[corner]| == 2 && r.value == Point(spec[corner][0], spec[corner][1])
  {
    if corner !in spec then Err(MissingCorner(corner))
    else if |spec[corner]| != 2 then Err(BadCorner(corner, |spec[corner]|))
    else Ok(Point(spec[corner][0], spec[corner][1]))
  }

  /** Every corner is present with exactly two coordinates. */
  predicate WellFormed(spec: RoiSpec)
  {
    && TopLeft in spec && |spec[TopLeft]| == 2
    && TopRight in spec && |spec[TopRight]| == 2
    && BottomLeft in spec && |spec[BottomLeft]| == 2
    && BottomRight in spec && |spec[BottomRight]| == 2
  }

  function X(spec: RoiSpec, corner: string): real
    requires corner in spec && |spec[corner]| == 2
  {
    spec[corner][0]
  }

  function Y(spec: RoiSpec, corner: string): real
    requires corner in spec && |spec[corner]| == 2
  {
    spec[corner][1]
  }

  /** Steps shared by every caller of `extract_roi`: read the corners, round
      the spans and the origin, and check the opposite spans. */
  function CropOf(spec: RoiSpec): (r: Result<Crop, RoiError>)
    // corner errors exactly when some corner is missing or malformed
    ensures (r.Err? && !r.error.SpanMismatch?) <==> !WellFormed(spec)
    // the crop is read off the top-left corner and the two top-left spans
    ensures r.Ok? ==> WellFormed(spec)
    ensures r.Ok? ==>
      && r.value.x0 == RoundHalfEven(X(spec, TopLeft))
      && r.value.y0 == RoundHalfEven(Y(spec, TopLeft))
      && r.value.dx == RoundHalfEven(X(spec, TopRight) - X(spec, TopLeft))
      && r.value.dy == RoundHalfEven(Y(spec, BottomLeft) - Y(spec, TopLeft))
    // the only corner relations checked are the two opposite-span ones
    ensures WellFormed(spec) ==>
      (r.Ok? <==>
        && IsClose(RoundHalfEven(X(spec, TopRight) - X(spec, TopLeft)),
                   RoundHalfEven(X(spec, BottomRight) - X(spec, BottomLeft)))
        && IsClose(RoundHalfEven(Y(spec, BottomLeft) - Y(spec, TopLeft)),
                   RoundHalfEven(Y(spec, BottomRight) - Y(spec, TopRight))))
    // the horizontal check runs first
    ensures r == Err(SpanMismatch(Vertical)) ==>
      IsClose(RoundHalfEven(X(spec, TopRight) - X(spec, TopLeft)),
              RoundHalfEven(X(spec, BottomRight) - X(spec, BottomLeft)))
  {
    var p0 :- ReadPoint(spec, TopLeft);
    var p1 :- ReadPoint(spec, TopRight);
    var p2 :- ReadPoint(spec, BottomLeft);
    var p3 :- ReadPoint(spec, BottomRight);
    var dx := RoundHalfEven(p1.x - p0.x);
    if !IsClose(dx, RoundHalfEven(p3.x - p2.x)) then Err(SpanMismatch(Horizontal))
    else
      var dy := RoundHalfEven(p2.y - p0.y);
      if !IsClose(dy, RoundHalfEven(p3.y - p1.y)) then Err(SpanMismatch(Vertical))
      else Ok(Crop(RoundHalfEven(p0.x), RoundHalfEven(p0.y), dx, dy))
  }

  /** For spans below 100000 pixels the `np.isclose` checks are exact: the
      call succeeds iff the rounded opposite spans are equal. */
  lemma CropOfExactForRealisticSpans(spec: RoiSpec)
    requires WellFormed(spec)
    requires -100000 < RoundHalfEven(X(spec, BottomRight) - X(spec, BottomLeft)) < 100000
    requires -100000 < RoundHalfEven(Y(spec, BottomRight) - Y(spec, TopRight)) < 100000
    ensures CropOf(spec).Ok? <==>
      && RoundHalfEven(X(spec, TopRight) - X(spec, TopLeft))
         == RoundHalfEven(X(spec, BottomRight) - X(spec, BottomLeft))
      && RoundHalfEven(Y(spec, BottomLeft) - Y(spec, TopLeft))
         == RoundHalfEven(Y(spec, BottomRight) - Y(spec, TopRight))
  {
    IsCloseIsEqualityBelowTolerance(
      RoundHalfEven(X(spec, TopRight) - X(spec, TopLeft)),
      RoundHalfEven(X(spec, BottomRight) - X(spec, BottomLeft)));
    IsCloseIsEqualityBelowTolerance(
      RoundHalfEven(Y(spec, BottomLeft) - Y(spec, TopLeft)),
      RoundHalfEven(Y(spec, BottomRight) - Y(spec, TopRight)));
  }

  // ---------------------------------------------------------------------------
  // numpy basic slicing with step 1
  // ---------------------------------------------------------------------------

  /** How numpy normalises a slice bound against an axis of length `n`:
      a negative bound counts from the end, then the bound is clamped
      into `[0, n]`. */
  function ClampIndex(i: int, n: nat): (r: nat)
    ensures r <= n
    ensures 0 <= i <= n ==> r == i
  {
    if i < 0 then (if i + n < 0 then 0 else i + n)
    else if i > n then n
    else i
  }

  /** Number of elements `s[start:stop]` selects on an axis of length `n`. */
  function SliceLen(start: int, stop: int, n: nat): (r: nat)
    ensures r <= n
  {
    var lo := ClampIndex(start, n);
    var hi := ClampIndex(stop, n);
    if lo <= hi then hi - lo else 0
  }

  /** The selected elements lie inside the axis. */
  lemma SliceWithinAxis(start: int, stop: int, n: nat)
    ensures ClampIndex(start, n) + SliceLen(start, stop, n) <= n
  {
  }

  /** `s[start:stop]`: never an index error, out-of-range bounds clamp. */
  function NpSlice<U>(s: seq<U>, start: int, stop: int): (r: seq<U>)
    ensures |r| == SliceLen(start, stop, |s|)
    ensures forall k :: 0 <= k < |r| ==> r[k] == s[ClampIndex(start, |s|) + k]
  {
    var lo := ClampIndex(start, |s|);
    var hi := ClampIndex(stop, |s|);
    if lo <= hi then s[lo..hi] else []
  }

  /** A negative start counts from the end of the axis. */
  lemma NegativeStartCountsFromEnd<U>(s: seq<U>, k: nat, stop: int)
    requires 0 < k <= |s|
    ensures NpSlice(s, -(k as int), stop) == NpSlice(s, |s| - k, stop)
  {
  }

  /** A negative stop counts from the end of the axis. */
  lemma NegativeStopCountsFromEnd<U>(s: seq<U>, start: int, k: nat)
    requires 0 < k <= |s|
    ensures NpSlice(s, start, -(k as int)) == NpSlice(s, start, |s| - k)
  {
  }

  /** A start before the beginning, even after counting from the end, is 0. */
  lemma UndershootStartsAtZero<U>(s: seq<U>, start: int, stop: int)
    requires start < -|s|
    ensures NpSlice(s, start, stop) == NpSlice(s, 0, stop)
  {
  }

  /** A bound past the end is the end. */
  lemma OvershootClamps<U>(s: seq<U>, start: int, stop: int)
    requires stop >= |s|
    ensures NpSlice(s, start, stop) == NpSlice(s, start, |s|)
  {
  }

  /** In range, numpy slicing is Dafny's subsequence. */
  lemma NpSliceInBounds<U>(s: seq<U>, start: int, stop: int)
    requires 0 <= start <= stop <= |s|
    ensures NpSlice(s, start, stop) == s[start..stop]
  {
  }

  /** One plane `plane[y0:y0+dy, x0:x0+dx]`. */
  function CropPlane<T>(plane: seq<seq<T>>, c: Crop): seq<seq<T>>
  {
    var rows := NpSlice(plane, c.y0, c.y0 + c.dy);
    seq(|rows|, i requires 0 <= i < |rows| => NpSlice(rows[i], c.x0, c.x0 + c.dx))
  }

  /** `volume[:, y0:y0+dy, x0:x0+dx]`: every depth slice is kept. */
  function CropVolume<T>(volume: Grid<T>, c: Crop): (r: Grid<T>)
    ensures |r| == |volume|
  {
    seq(|volume|, z requires 0 <= z < |volume| => CropPlane(volume[z], c))
  }

  /** `extract_roi(volume, roispec)`. There is no depth-range argument. */
  function ExtractRoi<T>(volume: Grid<T>, spec: RoiSpec): (r: Result<Grid<T>, RoiError>)
    ensures r.Ok? <==> CropOf(spec).Ok?
    ensures r.Err? ==> r.error == CropOf(spec).error
    ensures r.Ok? ==> |r.value| == |volume|
  {
    var c :- CropOf(spec);
    Ok(CropVolume(volume, c))
  }

  /** A dense (d, h, w) array: every plane has `h` rows of `w` elements. */
  ghost predicate IsBox<T>(v: Grid<T>, d: nat, h: nat, w: nat)
  {
    && |v| == d
    && (forall z :: 0 <= z < d ==> |v[z]| == h)
    && (forall z, y :: 0 <= z < d && 0 <= y < h ==> |v[z][y]| == w)
  }

  lemma ExtractRoiIsCrop<T>(volume: Grid<T>, spec: RoiSpec, c: Crop)
    requires CropOf(spec) == Ok(c)
    ensures ExtractRoi(volume, spec) == Ok(CropVolume(volume, c))
  {
  }

  /** Whatever the rectangle, the crop of a box is a box whose in-plane sides
      are what numpy slicing selects, and it keeps all `d` slices. */
  lemma ExtractRoiShape<T>(volume: Grid<T>, spec: RoiSpec, c: Crop, d: nat, h: nat, w: nat)
    requires IsBox(volume, d, h, w)
    requires CropOf(spec) == Ok(c)
    ensures ExtractRoi(volume, spec).Ok?
    ensures IsBox(ExtractRoi(volume, spec).value, d,
                  SliceLen(c.y0, c.y0 + c.dy, h), SliceLen(c.x0, c.x0 + c.dx, w))
  {
    ExtractRoiIsCrop(volume, spec, c);
    CropVolumeElements(volume, c, d, h, w, ClampIndex(c.y0, h), ClampIndex(c.x0, w),
                       SliceLen(c.y0, c.y0 + c.dy, h), SliceLen(c.x0, c.x0 + c.dx, w));
  }

  /** For a rectangle inside the volume the result has shape (D, dy, dx) and
      holds exactly the selected voxels. */
  lemma ExtractRoiInBounds<T>(volume: Grid<T>, spec: RoiSpec, c: Crop, d: nat, h: nat, w: nat)
    requires IsBox(volume, d, h, w)
    requires CropOf(spec) == Ok(c)
    requires 0 <= c.x0 && 0 <= c.dx && c.x0 + c.dx <= w
    requires 0 <= c.y0 && 0 <= c.dy && c.y0 + c.dy <= h
    ensures ExtractRoi(volume, spec).Ok?
    ensures IsBox(ExtractRoi(volume, spec).value, d, c.dy, c.dx)
    ensures forall z, i, j :: 0 <= z < d && 0 <= i < c.dy && 0 <= j < c.dx ==>
      ExtractRoi(volume, spec).value[z][i][j] == volume[z][c.y0 + i][c.x0 + j]
  {
    ExtractRoiIsCrop(volume, spec, c);
    CropInBounds(volume, c, d, h, w);
  }

  lemma CropInBounds<T>(volume: Grid<T>, c: Crop, d: nat, h: nat, w: nat)
    requires IsBox(volume, d, h, w)
    requires 0 <= c.x0 && 0 <= c.dx && c.x0 + c.dx <= w
    requires 0 <= c.y0 && 0 <= c.dy && c.y0 + c.dy <= h
    ensures IsBox(CropVolume(volume, c), d, c.dy, c.dx)
    ensures forall z, i, j :: 0 <= z < d && 0 <= i < c.dy && 0 <= j < c.dx ==>
      CropVolume(volume, c)[z][i][j] == volume[z][c.y0 + i][c.x0 + j]
  {
    assert ClampIndex(c.y0, h) == c.y0 && ClampIndex(c.y0 + c.dy, h) == c.y0 + c.dy;
    assert ClampIndex(c.x0, w) == c.x0 && ClampIndex(c.x0 + c.dx, w) == c.x0 + c.dx;
    CropVolumeElements(volume, c, d, h, w, c.y0, c.x0, c.dy, c.dx);
  }

  /** Voxel `[z][y][x]` of a crop is voxel `[z][ylo + y][xlo + x]` of the
      source, with `ylo`, `xlo` the normalised slice starts and `dh`, `dw`
      the sliced lengths. */
  lemma CropVolumeElements<T>(volume: Grid<T>, c: Crop, d: nat, h: nat, w: nat,
                              ylo: nat, xlo: nat, dh: nat, dw: nat)
    requires IsBox(volume, d, h, w)
    requires ylo == ClampIndex(c.y0, h) && dh == SliceLen(c.y0, c.y0 + c.dy, h)
    requires xlo == ClampIndex(c.x0, w) && dw == SliceLen(c.x0, c.x0 + c.dx, w)
    ensures IsBox(CropVolume(volume, c), d, dh, dw)
    ensures forall z, y, x :: 0 <= z < d && 0 <= y < dh && 0 <= x < dw ==>
      ylo + y < h && xlo + x < w && CropVolume(volume, c)[z][y][x] == volume[z][ylo + y][xlo + x]
  {
    forall z | 0 <= z < d
      ensures CropVolume(volume, c)[z] == CropPlane(volume[z], c)
    {
    }
    forall z | 0 <= z < d
      ensures |CropPlane(volume[z], c)| == dh
      ensures forall y :: 0 <= y < dh ==> |CropPlane(volume[z], c)[y]| == dw
      ensures forall y, x :: 0 <= y < dh && 0 <= x < dw ==>
        ylo + y < h && xlo + x < w && CropPlane(volume[z], c)[y][x] == volume[z][ylo + y][xlo + x]
    {
      CropPlaneElements(volume[z], c, h, w);
    }
  }

  /** The same, for one plane. */
  lemma CropPlaneElements<T>(plane: seq<seq<T>>, c: Crop, h: nat, w: nat)
    requires |plane| == h && forall y :: 0 <= y < h ==> |plane[y]| == w
    ensures |CropPlane(plane, c)| == SliceLen(c.y0, c.y0 + c.dy, h)
    ensures forall y :: 0 <= y < SliceLen(c.y0, c.y0 + c.dy, h) ==>
      |CropPlane(plane, c)[y]| == SliceLen(c.x0, c.x0 + c.dx, w)
    ensures forall y, x :: 0 <= y < SliceLen(c.y0, c.y0 + c.dy, h) && 0 <= x < SliceLen(c.x0, c.x0 + c.dx, w) ==>
      CropPlane(plane, c)[y][x] == plane[ClampIndex(c.y0, h) + y][ClampIndex(c.x0, w) + x]
  {
    var rows := NpSlice(plane, c.y0, c.y0 + c.dy);
    forall y | 0 <= y < |rows|
      ensures CropPlane(plane, c)[y] == NpSlice(plane[ClampIndex(c.y0, h) + y], c.x0, c.x0 + c.dx)
    {
      assert rows[y] == plane[ClampIndex(c.y0, h) + y];
    }
  }

  /** A top span of 10 against a bottom span of 12 is rejected. */
  lemma InconsistentSpansRejected()
    ensures CropOf(map[TopLeft := [0.0, 0.0], TopRight := [10.0, 0.0],
                       BottomLeft := [0.0, 5.0], BottomRight := [12.0, 5.0]])
            == Err(SpanMismatch(Horizontal))
  {
    var spec := map[TopLeft := [0.0, 0.0], TopRight := [10.0, 0.0],
                    BottomLeft := [0.0, 5.0], BottomRight := [12.0, 5.0]];
    assert WellFormed(spec);
    RoundHalfEvenOfInt(10);
    RoundHalfEvenOfInt(12);
    assert RoundHalfEven(X(spec, TopRight) - X(spec, TopLeft)) == 10;
    assert RoundHalfEven(X(spec, BottomRight) - X(spec, BottomLeft)) == 12;
  }

  // ---------------------------------------------------------------------------
  // the array-level entry point: the result is a fresh buffer
  // ---------------------------------------------------------------------------

  /** `np.copy(volume[:, y0:y0+dy, x0:x0+dx])` on an array: the crop lands
      in a newly allocated array, so writes to either array never reach the
      other. Its voxels follow the same index arithmetic as `CropVolume`
      (see `CropVolumeElements`). */
  method ExtractRoiCopy<T>(volume: array3<T>, spec: RoiSpec) returns (r: Result<array3<T>, RoiError>)
    ensures r.Ok? <==> CropOf(spec).Ok?
    ensures r.Err? ==> r.error == CropOf(spec).error
    ensures r.Ok? ==> fresh(r.value)
    ensures r.Ok? ==>
      var c, h, w := CropOf(spec).value, volume.Length1, volume.Length2;
      && r.value.Length0 == volume.Length0
      && r.value.Length1 == SliceLen(c.y0, c.y0 + c.dy, h)
      && r.value.Length2 == SliceLen(c.x0, c.x0 + c.dx, w)
      && forall z, y, x :: 0 <= z < r.value.Length0 && 0 <= y < r.value.Length1 && 0 <= x < r.value.Length2 ==>
           && ClampIndex(c.y0, h) + y < h && ClampIndex(c.x0, w) + x < w
           && r.value[z, y, x] == volume[z, ClampIndex(c.y0, h) + y, ClampIndex(c.x0, w) + x]
  {
    var cr := CropOf(spec);
    if cr.Err? {
      return Err(cr.error);
    }
    var out := CopySlice(volume, cr.value);
    r := Ok(out);
  }

  /** The copy itself, for an already computed crop. */
  method CopySlice<T>(volume: array3<T>, c: Crop) returns (out: array3<T>)
    ensures fresh(out)
    ensures out.Length0 == volume.Length0
    ensures out.Length1 == SliceLen(c.y0, c.y0 + c.dy, volume.Length1)
    ensures out.Length2 == SliceLen(c.x0, c.x0 + c.dx, volume.Length2)
    ensures forall z, y, x :: 0 <= z < out.Length0 && 0 <= y < out.Length1 && 0 <= x < out.Length2 ==>
      && ClampIndex(c.y0, volume.Length1) + y < volume.Length1
      && ClampIndex(c.x0, volume.Length2) + x < volume.Length2
      && out[z, y, x] == volume[z, ClampIndex(c.y0, volume.Length1) + y, ClampIndex(c.x0, volume.Length2) + x]
  {
    var d, h, w := volume.Length0, volume.Length1, volume.Length2;
    var ylo, xlo := ClampIndex(c.y0, h), ClampIndex(c.x0, w);
    var dh, dw := SliceLen(c.y0, c.y0 + c.dy, h), SliceLen(c.x0, c.x0 + c.dx, w);
    SliceWithinAxis(c.y0, c.y0 + c.dy, h);
    SliceWithinAxis(c.x0, c.x0 + c.dx, w);
    out := new T[d, dh, dw]((z, y, x) reads volume
      requires 0 <= z < d && 0 <= y < dh && 0 <= x < dw =>
      volume[z, ylo + y, xlo + x]);
  }

  // ---------------------------------------------------------------------------
  // export_coordinates
  // ---------------------------------------------------------------------------

  /** The selector's `rect_coords`: press corner (x0, y0), release corner (x1, y1). */
  datatype Rect = Rect(x0: real, y0: real, x1: real, y1: real)

  /** The corner dictionary `export_coordinates` builds from `rect_coords`. */
  function CornerDict(rc: Rect): (spec: RoiSpec)
    ensures spec.Keys == {TopLeft, TopRight, BottomLeft, BottomRight}
    ensures WellFormed(spec)
  {
    map[TopLeft := [rc.x0, rc.y0], TopRight := [rc.x1, rc.y0],
        BottomLeft := [rc.x0, rc.y1], BottomRight := [rc.x1, rc.y1]]
  }

  /** An exported rectangle always has equal opposite spans, so feeding it to
      `extract_roi` never trips the span assertions; the crop starts at the
      rounded press corner and spans the rounded drag distances. */
  lemma CornerDictAlwaysConsistent(rc: Rect)
    ensures CropOf(CornerDict(rc)) == Ok(Crop(RoundHalfEven(rc.x0), RoundHalfEven(rc.y0),
                                              RoundHalfEven(rc.x1 - rc.x0),
                                              RoundHalfEven(rc.y1 - rc.y0)))
  {
    var spec := CornerDict(rc);
    assert X(spec, TopRight) - X(spec, TopLeft) == X(spec, BottomRight) - X(spec, BottomLeft);
    assert Y(spec, BottomLeft) - Y(spec, TopLeft) == Y(spec, BottomRight) - Y(spec, TopRight);
  }

  /** A ROI specification stored as a cache value: a dict of float lists. */
  function SpecValue(spec: RoiSpec): Value
  {
    Dict(map k | k in spec :: List(seq(|spec[k]|, i requires 0 <= i < |spec[k]| => Num(spec[k][i]))))
  }

  predicate IsNumList(v: Value)
  {
    v.List? && forall i :: 0 <= i < |v.items| ==> v.items[i].Num?
  }

  /** Reading a cache value back as a ROI specification. */
  function SpecOfValue(v: Value): Option<RoiSpec>
  {
    if v.Dict? && forall k :: k in v.fields ==> IsNumList(v.fields[k])
    then Some(map k | k in v.fields ::
                seq(|v.fields[k].items|, i requires 0 <= i < |v.fields[k].items| => v.fields[k].items[i].x))
    else None
  }

  /** What is stored is exactly the specification that was built. */
  lemma SpecValueRoundTrip(spec: RoiSpec)
    ensures SpecOfValue(SpecValue(spec)) == Some(spec)
  {
    var v := SpecValue(spec);
    assert forall k :: k in v.fields ==> IsNumList(v.fields[k]);
    var back := SpecOfValue(v);
    assert back.Some?;
    assert back.value.Keys == spec.Keys;
    forall k | k in spec
      ensures back.value[k] == spec[k]
    {
      var items := SpecValue(spec).fields[k].items;
      assert |back.value[k]| == |items| == |spec[k]|;
      forall i | 0 <= i < |spec[k]|
        ensures back.value[k][i] == spec[k][i]
      {
        assert back.value[k][i] == items[i].x;
      }
    }
    assert back.value == spec;
  }

  /** `export_coordinates`: `params[ID]['roi'] = coords_dict`, creating the
      entry for `ID` when it is missing. */
  function ExportCoordinates(cache: Cache, id: string, rc: Rect): (r: Cache)
    ensures r.Keys == cache.Keys + {id}
    ensures "roi" in r[id] && SpecOfValue(r[id]["roi"]) == Some(CornerDict(rc))
    // the record holds the four corners and nothing else
    ensures r[id]["roi"].Dict? && r[id]["roi"].fields.Keys == {TopLeft, TopRight, BottomLeft, BottomRight}
    ensures forall other :: other in cache && other != id ==> r[other] == cache[other]
    ensures id !in cache ==> r[id].Keys == {"roi"}
    ensures id in cache ==> r[id].Keys == cache[id].Keys + {"roi"}
    ensures id in cache ==> forall k :: k in cache[id] && k != "roi" ==> k in r[id] && r[id][k] == cache[id][k]
  {
    SpecValueRoundTrip(CornerDict(rc));
    Upsert(cache, id, "roi", SpecValue(CornerDict(rc)))
  }
}

=== FILE: rotations.dfy ===
/** The parts of `RotationWidget` (`pipeline/rotations.py`) with a contract:
    the mode choice, the live preview that always uses nearest-neighbour
    interpolation, and the record `rotate` writes into the parameter cache.
    Rotated voxels themselves are not modelled. */
module Rotations {
  import opened Results
  import opened Params
  import opened Transforms

  /** The interpolation dropdown's options, in display order. */
  const DropdownOptions: seq<string> := ["nearest", "bilinear"]

  /** The dropdown offers exactly the modes `InterpolationMode(...)` turns
      into a `Mode`, so `get_interpolation_mode` never fails. */
  lemma DropdownOffersExactlyTheModes(s: string)
    ensures s in DropdownOptions <==> ModeOf(s).Some?
  {
  }

  /** `str(mode)` for an `InterpolationMode` member: the enum class name and
      the member name, as Python prints a plain `Enum`. */
  function ModeLabel(m: Mode): (r: string)
    // the stored label is not itself a value `InterpolationMode(...)` accepts
    ensures ModeOf(r).None?
  {
    match m
    case Nearest => "InterpolationMode.NEAREST"
    case Bilinear => "InterpolationMode.BILINEAR"
  }

  /** Reading a stored label back. */
  function ModeOfLabel(s: string): (r: Option<Mode>)
    ensures r.Some? ==> ModeLabel(r.value) == s
  {
    if s == "InterpolationMode.NEAREST" then Some(Nearest)
    else if s == "InterpolationMode.BILINEAR" then Some(Bilinear)
    else None
  }

  /** The stored label identifies the mode that was used. */
  lemma ModeLabelRoundTrip(m: Mode)
    ensures ModeOfLabel(ModeLabel(m)) == Some(m)
  {
  }

  /** `{'angle': angle, 'mode': str(mode)}`. */
  function RotationRecord(angle: real, m: Mode): (r: Value)
    ensures r.Dict? && r.fields.Keys == {"angle", "mode"}
    ensures RotationOfRecord(r) == Some((angle, m))
  {
    Dict(map["angle" := Num(angle), "mode" := Str(ModeLabel(m))])
  }

  /** Reading a stored rotation record back as (angle, mode). */
  function RotationOfRecord(v: Value): Option<(real, Mode)>
  {
    if v.Dict? && "angle" in v.fields && "mode" in v.fields
       && v.fields["angle"].Num? && v.fields["mode"].Str?
       && ModeOfLabel(v.fields["mode"].s).Some?
    then Some((v.fields["angle"].x, ModeOfLabel(v.fields["mode"].s).value))
    else None
  }

  /** The state of one widget that the rotation logic reads: the dataset
      ID, the slider value, the dropdown selection and the preview panels. */
  datatype Widget<I> = Widget(id: string, angle: real, selected: Mode, panels: seq<I>)

  /** `rotate`: record `{angle, mode}` under `cache[ID]['rotation']`,
      creating `cache[ID]` when it is missing. */
  function Rotate<I>(w: Widget<I>, cache: Cache): (r: Cache)
    ensures r.Keys == cache.Keys + {w.id}
    ensures "rotation" in r[w.id] && RotationOfRecord(r[w.id]["rotation"]) == Some((w.angle, w.selected))
    // the record holds the angle and the mode and nothing else
    ensures r[w.id]["rotation"].Dict? && r[w.id]["rotation"].fields.Keys == {"angle", "mode"}
    ensures forall other :: other in cache && other != w.id ==> r[other] == cache[other]
    ensures w.id !in cache ==> r[w.id].Keys == {"rotation"}
    ensures w.id in cache ==> r[w.id].Keys == cache[w.id].Keys + {"rotation"}
    ensures w.id in cache ==>
      forall k :: k in cache[w.id] && k != "rotation" ==> k in r[w.id] && r[w.id][k] == cache[w.id][k]
  {
    ModeLabelRoundTrip(w.selected);
    Upsert(cache, w.id, "rotation", RotationRecord(w.angle, w.selected))
  }

  /** One `datatransform(data, angle=..., mode=...)` call. */
  datatype TransformCall<I> = TransformCall(image: I, angle: real, mode: string)

  /** `_callback`: moving the slider re-renders every panel through
      `datatransform` with mode `'nearest'`, whatever the dropdown says. */
  function OnSliderChange<I>(w: Widget<I>, newAngle: real): (calls: seq<TransformCall<I>>)
    ensures |calls| == |w.panels|
    ensures forall i :: 0 <= i < |calls| ==>
      calls[i].image == w.panels[i] && calls[i].angle == newAngle && ModeOf(calls[i].mode) == Some(Nearest)
  {
    seq(|w.panels|, i requires 0 <= i < |w.panels| => TransformCall(w.panels[i], newAngle, "nearest"))
  }

  /** The preview does not depend on the dropdown selection at all. */
  lemma PreviewIgnoresDropdown<I>(w: Widget<I>, newAngle: real, m: Mode)
    ensures OnSliderChange(w.(selected := m), newAngle) == OnSliderChange(w, newAngle)
  {
  }

  /** With planar panels, every preview call succeeds and keeps the panel's
      shape. */
  lemma PreviewKeepsPanelShapes(w: Widget<seq<nat>>, newAngle: real)
    requires forall i :: 0 <= i < |w.panels| ==> |w.panels[i]| == 2
    ensures forall i :: 0 <= i < |w.panels| ==>
      var call := OnSliderChange(w, newAngle)[i];
      DataTransform(call.image, call.angle, call.mode) == Ok(w.panels[i])
  {
  }
}

=== FILE: rounding.dfy ===
/** The two numeric helpers numpy contributes to the pipeline:
    `np.round` (round half to even) and `np.isclose` with its default
    tolerances. Floating point is modelled by exact reals. */
module Rounding {

  /** `np.round(x)` followed by `int(...)`: the nearest integer, ties to the
      even neighbour (banker's rounding). */
  function RoundHalfEven(x: real): (r: int)
    ensures x - 1.0 / 2.0 <= r as real <= x + 1.0 / 2.0
    ensures (r as real == x - 1.0 / 2.0 || r as real == x + 1.0 / 2.0) ==> r % 2 == 0
  {
    var f := x.Floor;
    var frac := x - f as real;
    if frac < 1.0 / 2.0 then f
    else if frac > 1.0 / 2.0 then f + 1
    else if f % 2 == 0 then f
    else f + 1
  }

  /** The two conditions `RoundHalfEven` promises single out one integer,
      so they are a complete description of it. */
  lemma RoundHalfEvenUnique(x: real, n: int)
    requires x - 1.0 / 2.0 <= n as real <= x + 1.0 / 2.0
    requires (n as real == x - 1.0 / 2.0 || n as real == x + 1.0 / 2.0) ==> n % 2 == 0
    ensures RoundHalfEven(x) == n
  {
    var r := RoundHalfEven(x);
    // Two distinct integers within half a unit of x would be one apart and
    // both sit on a tie, so they could not both be even.
    assert r == n;
  }

  /** Whole numbers are left alone. */
  lemma RoundHalfEvenOfInt(n: int)
    ensures RoundHalfEven(n as real) == n
  {
    RoundHalfEvenUnique(n as real, n);
  }

  function Abs(x: real): real { if x < 0.0 then -x else x }

  /** `np.isclose(a, b)` with numpy's defaults `rtol = 1e-5`, `atol = 1e-8`:
      `|a - b| <= atol + rtol * |b|`. Note the asymmetry: only `|b|` scales
      the tolerance. */
  predicate IsClose(a: int, b: int)
    // identical spans always pass the check
    ensures a == b ==> IsClose(a, b)
  {
    Abs(a as real - b as real) <= 1.0 / 100000000.0 + Abs(b as real) / 100000.0
  }

  /** Below 100000 in magnitude the tolerance is under one unit, so on the
      integers `np.isclose` is plain equality. */
  lemma IsCloseIsEqualityBelowTolerance(a: int, b: int)
    requires -100000 < b < 100000
    ensures IsClose(a, b) <==> a == b
  {
    if a != b {
      assert Abs(a as real - b as real) >= 1.0;
      assert Abs(b as real) <= 99999.0;
      assert Abs(b as real) / 100000.0 <= 99999.0 / 100000.0;
    }
  }

  /** From 100000 upwards in magnitude an off-by-one integer pair already
      counts as close. */
  lemma IsCloseToleratesOffByOneAtScale(a: int, b: int)
    requires b >= 100000 || b <= -100000
    requires -1 <= a - b <= 1
    ensures IsClose(a, b)
  {
  }
}

=== FILE: state.dfy ===
/** The shared interactive state (`pipeline/state.py`): the `WorkItem` that
    carries the current dataset and its parameters, and the `StateManager`
    that holds one item and notifies registered observers when it is
    replaced. Observers are identified by number; what an observer does in
    `on_state_change` is outside the model, and each call is recorded in a
    ghost notification trace instead. */
module State {
  import opened Results
  import opened Params

  /** Identity of a registered observer object. */
  type Observer = nat

  /** A dataset ID, its volume buffer, and the parameter kinds recorded for it. */
  datatype WorkItem = WorkItem(id: Option<string>, volume: Option<array3<real>>, parameters: map<string, Value>)

  /** `WorkItem()`: no ID, no volume, no parameters. */
  const DefaultItem: WorkItem := WorkItem(None, None, map[])

  /** Two arrays of the same shape holding the same voxels. */
  ghost predicate SameVoxels(a: array3<real>, b: array3<real>)
    reads a, b
  {
    && a.Length0 == b.Length0 && a.Length1 == b.Length1 && a.Length2 == b.Length2
    && forall z, y, x :: 0 <= z < a.Length0 && 0 <= y < a.Length1 && 0 <= x < a.Length2 ==>
         a[z, y, x] == b[z, y, x]
  }

  /** `WorkItem.copy`: same ID, a new buffer with the same voxels (or still
      no volume), and the same parameters. Parameter maps are values here, so
      the deep copy of `parameters` is not distinguished from a shallow one;
      the buffer is freshly allocated, so writing into the copy's volume can
      never change the original's, and vice versa. */
  method Copy(w: WorkItem) returns (c: WorkItem)
    ensures c.id == w.id
    ensures c.parameters == w.parameters
    ensures c.volume.Some? <==> w.volume.Some?
    ensures c.volume.Some? ==> fresh(c.volume.value) && SameVoxels(c.volume.value, w.volume.value)
  {
    var volume: Option<array3<real>> := None;
    if w.volume.Some? {
      var a := w.volume.value;
      var b := new real[a.Length0, a.Length1, a.Length2]((z, y, x) reads a
        requires 0 <= z < a.Length0 && 0 <= y < a.Length1 && 0 <= x < a.Length2 => a[z, y, x]);
      volume := Some(b);
    }
    c := WorkItem(w.id, volume, w.parameters);
  }

  /** `StateManager`: the current item, the registered observers in
      registration order, and the ghost trace of every notification made. */
  class StateManager {
    var item: WorkItem
    var observers: seq<Observer>
    ghost var notified: seq<Observer>

    constructor(initial: WorkItem)
      ensures item == initial && observers == [] && notified == []
    {
      item := initial;
      observers := [];
      notified := [];
    }

    /** `update(new_item)`: replace the item wholesale, then notify. */
    method Update(newItem: WorkItem)
      modifies this
      ensures item == newItem
      ensures observers == old(observers)
      ensures notified == old(notified) + old(observers)
    {
      item := newItem;
      NotifyObservers();
    }

    /** `register_observer`: append, duplicates included; nobody is notified. */
    method RegisterObserver(o: Observer)
      modifies this
      ensures observers == old(observers) + [o]
      ensures item == old(item)
      ensures notified == old(notified)
    {
      observers := observers + [o];
    }

    /** `notify_observers`: call every observer once per registration, in
      registration order. */
    method NotifyObservers()
      modifies this
      ensures notified == old(notified) + observers
      ensures item == old(item) && observers == old(observers)
    {
      for i := 0 to |observers|
        invariant notified == old(notified) + observers[..i]
        invariant item == old(item) && observers == old(observers)
      {
        notified := notified + [observers[i]];
      }
    }
  }

  /** Two registrations, one update: both are notified once, in order; an
      observer registered twice is notified twice. */
  method NotificationOrder(a: Observer, b: Observer, x: WorkItem)
  {
    var sm := new StateManager(DefaultItem);
    sm.RegisterObserver(a);
    sm.RegisterObserver(b);
    sm.Update(x);
    assert sm.notified == [a, b] && sm.item == x;
    sm.RegisterObserver(a);
    sm.Update(x);
    assert sm.notified == [a, b] + [a, b, a];
  }
}

=== FILE: transforms.dfy ===
/** Shape-level model of `pipeline/transforms.py`: the validation and target
    shape of `downsample`, and the rank check and output shape of the planar
    rotation `datatransform`. Voxel values (trilinear resize, rotation
    kernels) are not modelled; shapes are sequences of axis lengths. */
module Transforms {
  import opened Results
  import opened Rounding

  /** The interpolation modes the rotation widget offers. */
  datatype Mode = Nearest | Bilinear

  /** The enum value: what the dropdown shows and `InterpolationMode(...)`
      accepts. */
  function ModeValue(m: Mode): string
  {
    match m
    case Nearest => "nearest"
    case Bilinear => "bilinear"
  }

  /** `InterpolationMode(s)` restricted to the two supported modes. */
  function ModeOf(s: string): (r: Option<Mode>)
    ensures r.Some? ==> ModeValue(r.value) == s
  {
    if s == "nearest" then Some(Nearest)
    else if s == "bilinear" then Some(Bilinear)
    else None
  }

  /** Every mode's value parses back to that mode, so `ModeOf` is the exact
      inverse of `ModeValue`. */
  lemma ModeValueRoundTrip(m: Mode)
    ensures ModeOf(ModeValue(m)) == Some(m)
  {
  }

  datatype TransformError =
    | WrongRank(rank: nat)
    | NotSquare(h: nat, w: nat)
    | ZeroDivision
    | UnsupportedMode(mode: string)

  /** Result of `downsample` at shape level, plus whether the non-unit
      channel warning was emitted. */
  datatype Downsampled = Downsampled(shape: seq<nat>, warnedChannels: bool)

  /** `downsample(volume, in_plane_target)` for a volume of the given shape. */
  function Downsample(shape: seq<nat>, target: nat): (r: Result<Downsampled, TransformError>)
    // rank must be exactly 4 (C, D, H, W)
    ensures |shape| != 4 <==> r == Err(WrongRank(|shape|))
    // then the in-plane axes must agree
    ensures |shape| == 4 ==> (r == Err(NotSquare(shape[2], shape[3])) <==> shape[2] != shape[3])
    // an empty square plane divides by zero
    ensures |shape| == 4 && shape[2] == shape[3] ==> (r == Err(ZeroDivision) <==> shape[2] == 0)
    // otherwise the result is (C, z, t, t); a channel count other than 1 only warns
    ensures r.Ok? ==> |r.value.shape| == 4 && r.value.shape[0] == shape[0]
                      && r.value.shape[2] == target && r.value.shape[3] == target
    ensures r.Ok? ==> (r.value.warnedChannels <==> shape[0] != 1)
    // z keeps the depth-to-plane aspect ratio up to half a slice
    ensures r.Ok? ==>
      var z, d, h := r.value.shape[1], shape[1], shape[2];
      -(h as real) <= 2.0 * (z as real * h as real - target as real * d as real) <= h as real
  {
    if |shape| != 4 then Err(WrongRank(|shape|))
    else
      var c, d, h, w := shape[0], shape[1], shape[2], shape[3];
      if h != w then Err(NotSquare(h, w))
      else if h == 0 then Err(ZeroDivision)
      else
        var z := RoundHalfEven(ScaledDepth(target, d, h));
        DepthWithinHalfSlice(target, d, h, z);
        Ok(Downsampled([c, z, target, target], c != 1))
  }

  /** `factor * D` with `factor = in_plane_target / H`. */
  function ScaledDepth(target: nat, d: nat, h: nat): real
    requires h > 0
  {
    var factor := target as real / h as real;
    factor * d as real
  }

  /** The rounded depth is within half a slice of `t·D/H`, measured in units of `H`. */
  lemma DepthWithinHalfSlice(target: nat, d: nat, h: nat, z: int)
    requires h > 0
    requires z == RoundHalfEven(ScaledDepth(target, d, h))
    ensures -(h as real) <= 2.0 * (z as real * h as real - target as real * d as real) <= h as real
  {
    var hr := h as real;
    var x := target as real / hr * d as real;
    QuotientTimesDivisor(target as real, d as real, hr);
    HalfUnitScales(z, x, hr, target as real * d as real);
  }

  lemma ScaledDepthIsQuotient(target: nat, d: nat, h: nat)
    requires h > 0
    ensures ScaledDepth(target, d, h) == target as real * d as real / h as real
  {
  }

  lemma QuotientTimesDivisor(t: real, d: real, h: real)
    requires h > 0.0
    ensures (t / h * d) * h == t * d
  {
    assert t / h * h == t;
  }

  /** Scaling "within half a unit" by a positive factor `h`. */
  lemma HalfUnitScales(z: int, x: real, h: real, xh: real)
    requires h > 0.0
    requires x * h == xh
    requires x - 1.0 / 2.0 <= z as real <= x + 1.0 / 2.0
    ensures -h <= 2.0 * (z as real * h - xh) <= h
  {
    var e := z as real - x;
    assert z as real * h - xh == e * h;
    NonNegProduct(1.0 / 2.0 - e, h);
    NonNegProduct(1.0 / 2.0 + e, h);
  }

  lemma NonNegProduct(a: real, b: real)
    requires a >= 0.0 && b >= 0.0
    ensures a * b >= 0.0
  {
  }

  /** On a valid square volume the depth is the integer nearest to `t·D/H`,
      ties to even, and the rest of the shape is (C, ·, t, t). */
  lemma DownsampleDepthIsRounded(c: nat, d: nat, h: nat, target: nat)
    requires h > 0
    ensures Downsample([c, d, h, h], target).Ok?
    ensures Downsample([c, d, h, h], target).value.shape
         == [c, RoundHalfEven(target as real * d as real / h as real), target, target]
  {
    ScaledDepthIsQuotient(target, d, h);
  }

  /** An example: (1, 100, 200, 200) at 50 gives (1, 25, 50, 50),
      without a channel warning. */
  lemma DownsampleExample()
    ensures Downsample([1, 100, 200, 200], 50) == Ok(Downsampled([1, 25, 50, 50], false))
  {
    assert 50.0 / 200.0 * 100.0 == 25 as real;
    RoundHalfEvenOfInt(25);
  }

  /** Asking for the current in-plane size keeps the depth. */
  lemma DownsampleToSameSizeKeepsDepth(c: nat, d: nat, h: nat)
    requires h > 0
    ensures Downsample([c, d, h, h], h) == Ok(Downsampled([c, d, h, h], c != 1))
  {
    assert h as real / h as real * d as real == d as real;
    RoundHalfEvenOfInt(d);
  }

  // ---------------------------------------------------------------------------
  // datatransform
  // ---------------------------------------------------------------------------

  /** `np.squeeze`: drop every axis of length one. */
  function Squeeze(shape: seq<nat>): (r: seq<nat>)
    ensures forall i :: 0 <= i < |r| ==> r[i] != 1
  {
    if |shape| == 0 then []
    else (if shape[0] == 1 then [] else [shape[0]]) + Squeeze(shape[1..])
  }

  /** Squeezing removes the unit axes and nothing else. */
  lemma {:induction false} SqueezeDropsOnlyUnitAxes(shape: seq<nat>)
    ensures multiset(Squeeze(shape)) == multiset(shape)[1 := 0]
  {
    if |shape| > 0 {
      assert shape == [shape[0]] + shape[1..];
      SqueezeDropsOnlyUnitAxes(shape[1..]);
    }
  }

  /** `datatransform(image, angle, mode)` AS WRITTEN, at shape level: the
      rank assertion, the mode lookup, then a rotation of the (1, H, W)
      tensor that keeps its shape, then `np.squeeze` of the result. */
  function DataTransformAsWritten(shape: seq<nat>, angle: real, mode: string): (r: Result<seq<nat>, TransformError>)
    ensures |shape| != 2 ==> r == Err(WrongRank(|shape|))
    ensures |shape| == 2 ==> (r.Err? <==> ModeOf(mode).None?)
    ensures r.Ok? ==> (r.value == shape <==> shape[0] != 1 && shape[1] != 1)
  {
    if |shape| != 2 then Err(WrongRank(|shape|))
    else if ModeOf(mode).None? then Err(UnsupportedMode(mode))
    else
      var rotated := [1] + shape;
      SqueezeUnitThenPair(shape[0], shape[1]);
      assert shape == [shape[0], shape[1]];
      Ok(Squeeze(rotated))
  }

  /** Squeezing (1, H, W) keeps exactly the non-unit sides, in order. */
  lemma SqueezeUnitThenPair(h: nat, w: nat)
    ensures Squeeze([1, h, w]) == (if h == 1 then [] else [h]) + (if w == 1 then [] else [w])
  {
    SqueezeCons(w, []);
    assert [w] + [] == [w];
    SqueezeCons(h, [w]);
    assert [h] + [w] == [h, w];
    SqueezeCons(1, [h, w]);
    assert [1] + [h, w] == [1, h, w];
  }

  lemma SqueezeCons(n: nat, rest: seq<nat>)
    ensures Squeeze([n] + rest) == (if n == 1 then [] else [n]) + Squeeze(rest)
  {
    assert ([n] + rest)[1..] == rest;
  }

  /** A one-row image comes back one-dimensional: the squeeze removes the
      image's own unit axis together with the inserted one. */
  lemma DataTransformAsWrittenDropsUnitAxis()
    ensures DataTransformAsWritten([1, 5], 0.0, "nearest") == Ok([5])
  {
    assert [1] + [1, 5] == [1, 1, 5];
    SqueezeUnitThenPair(1, 5);
    assert Squeeze([1, 1, 5]) == [5];
  }

  /** `datatransform` as intended: only the inserted leading axis is removed,
      so the output is always the input's (H, W). */
  function DataTransform(shape: seq<nat>, angle: real, mode: string): (r: Result<seq<nat>, TransformError>)
    ensures |shape| != 2 ==> r == Err(WrongRank(|shape|))
    ensures |shape| == 2 ==> (r.Err? <==> ModeOf(mode).None?)
    ensures r.Ok? ==> r.value == shape && |r.value| == 2
  {
    if |shape| != 2 then Err(WrongRank(|shape|))
    else if ModeOf(mode).None? then Err(UnsupportedMode(mode))
    else
      var rotated := [1] + shape;
      Ok(rotated[1..])
  }

  /** The two versions agree exactly on images with no unit axis. */
  lemma DataTransformAgreesAwayFromUnitAxes(shape: seq<nat>, angle: real, mode: string)
    requires |shape| == 2 && shape[0] != 1 && shape[1] != 1
    ensures DataTransformAsWritten(shape, angle, mode) == DataTransform(shape, angle, mode)
  {
  }
}
